=== FILE: README.md ===
# Residence portal front end — a Dafny model

This project models the decision logic of the residence (copropriété) portal's
React front end:

- the **session shell** (`App.js`): restoring a session from `localStorage`,
  role gating of the sections, the navigation bar, the routes with the
  guarded incidents page, login success and logout;
- the **login form** (`Login.js`): `parseJwt` (split on `.`, decode segment 1),
  deriving the role from the `cognito:groups` claim, and every branch of
  `handleSubmit` (success, rejected credentials, network or parse failure),
  including what it writes to storage;
- the **access request wizard** (`AccessRequest.js`): the three-step stepper,
  its per-step validation, Back/Next, and the submission, plus the incident
  page's priority and status colour tables and its creation dialog draft;
- the **calendar** (`Calendar.js`): the month grid (leading blanks, then the
  day numbers), the `YYYY-MM-DD` key used to match events to a day, the
  month query and ← / → navigation, plus the newsgroup's reply count and
  100-character preview;
- the **documentation page** (`Documentation.js`): the case-insensitive search
  filter, grouping by category, the upload button's role gate, the upload
  handler's call sequence and reset, and the displayed title.

JavaScript values are modelled explicitly where the code depends on them:
`JsValues.JsString` distinguishes `null`, `undefined` and strings;
`localStorage.setItem` stores `String(v)`, so an `undefined` role is stored as
the text `"undefined"`; truthiness of a string is "non-empty"; `split`,
`toLowerCase` (ASCII letters), `includes` and `padStart(2, '0')` are written
out in `JsStrings`. Dates use the proleptic Gregorian calendar with JavaScript's
0-based months and Sunday = 0 (`Gregorian`). Every network call is an input:
the model takes the reply (or the failure) as a parameter and states what the
handler does with it.

Two edge cases of the login handler are modelled as the code behaves:

- a `cognito:groups` claim that is an empty list gives the role `undefined`
  (stored as `"undefined"`); only a missing claim gives the default `"user"`
  (`LoginForm.RoleDerivation`);
- when the id token's payload decodes to JSON `null`, reading
  `cognito:groups` throws after the three tokens are already stored, so the
  catch branch reports a connection error, the tokens stay in storage, and
  the stored role is whatever it was before
  (`LoginForm.SubmitNullPayloadLeavesTokens`).

Strings the page measures are measured as JavaScript does: the newsgroup
preview cuts after 100 UTF-16 code units (`Newsgroup.Encode`), and routes are
matched the way React Router matches them, ignoring ASCII case and trailing
'/' characters (`AppShell.RouteKey`).

## Model

| member | source | states |
|---|---|---|
| JsValues.Stringify | frontend/src/components/Login.js:47-54 | `localStorage.setItem` stores a string value as is, `null` as "null" and `undefined` as "undefined" |
| BrowserStorage.GetItem | frontend/src/App.js:28-29 | reading a key gives its stored string when present and `null` (never `undefined`) when absent |
| BrowserStorage.SetItem | frontend/src/components/Login.js:47-54 | writing a key stores the coerced value under that key and leaves every other key as it was |
| BrowserStorage.RemoveItem | frontend/src/App.js:55-58 | removing a key deletes exactly that key and leaves the others as they were |
| Seqs.Filter | frontend/src/components/Documentation.js:148-152 | `Array.filter` keeps exactly the elements satisfying the predicate, never more than the input |
| Seqs.FilterIsSubsequence | frontend/src/components/Documentation.js:148-152 | the filtered list keeps the input's order |
| Seqs.FilterCount | frontend/src/components/Calendar.js:79 | a kept element keeps all its occurrences; a rejected one has none |
| Seqs.FilterAppend | frontend/src/components/Documentation.js:157-162 | filtering a concatenation is the concatenation of the filtered parts |
| JsStrings.Split | frontend/src/components/Login.js:74 | `split('.')` gives at least one part, no part contains the separator, and a string without it is a single part |
| JsStrings.JoinSplit | frontend/src/components/Login.js:74 | joining the parts of a split with the separator rebuilds the original token |
| JsStrings.SplitJoin | frontend/src/components/Login.js:74 | splitting a join of separator-free parts gives back exactly those parts |
| JsStrings.Lower | frontend/src/components/Documentation.js:149-151 | `toLowerCase` keeps the length and maps each character to its lower-case form |
| JsStrings.LowerChar | frontend/src/components/Documentation.js:149-151 | upper-case letters change, every other character is kept, and no upper-case letter remains |
| JsStrings.LowerIdempotent | frontend/src/components/Documentation.js:149-151 | lowering twice is the same as lowering once |
| JsStrings.Includes | frontend/src/components/Documentation.js:149-151 | `includes` holds whenever the term starts the string, and only for terms no longer than the string |
| JsStrings.IncludesAt | frontend/src/components/Documentation.js:149-151 | `includes` holds exactly when the term occurs at some position of the string |
| JsStrings.IncludesEmpty | frontend/src/components/Documentation.js:149-151 | every string includes the empty term |
| JsStrings.PadStart2 | frontend/src/components/Calendar.js:78 | `padStart(2, '0')` leaves strings of two or more characters alone and left-fills shorter ones with '0' to length 2 |
| JsStrings.NatToString | frontend/src/components/Calendar.js:78 | the decimal text of a natural number is all digits, one digit exactly below 10, two digits from 10 to 99, and starts with '0' only for 0 (no leading zeros) |
| JsStrings.IntToString | frontend/src/components/Calendar.js:78 | the decimal text of a year starts with '-' exactly when the year is negative, is unpadded (it starts with '0' only for 0, and a negative year's digits never start with '0') |
| JsStrings.ParseNatToString | frontend/src/components/Calendar.js:78 | reading back the decimal text of a natural number gives the number |
| JsStrings.IntToStringRoundTrip | frontend/src/components/Calendar.js:78 | reading back the decimal text of an integer year gives the year |
| JsStrings.IntToStringInjective | frontend/src/components/Calendar.js:78 | two years with the same decimal text are the same year |
| LoginForm.ParseJwt | frontend/src/components/Login.js:72-78 | a token that is not a string yields the empty claims `{}` instead of throwing |
| LoginForm.ParseJwtWithoutSecondSegment | frontend/src/components/Login.js:72-78 | a token without '.' has no segment 1, so the catch returns `{}` |
| LoginForm.ParseJwtUndecodable | frontend/src/components/Login.js:72-78 | a segment 1 that does not decode to JSON yields `{}` |
| LoginForm.ParseJwtReadsOnlySegmentOne | frontend/src/components/Login.js:74 | two tokens with the same segment 1 parse to the same payload, whatever the header and signature |
| LoginForm.ParseJwtOfThreeSegments | frontend/src/components/Login.js:74 | for `header.payload.signature` the decoded segment is exactly the payload part |
| LoginForm.RoleFromGroups | frontend/src/components/Login.js:53 | the derived role is never `null` |
| LoginForm.RoleDerivation | frontend/src/components/Login.js:53 | a missing claim gives "user", a non-empty list gives its first group, an empty list gives `undefined`; the role is "user" exactly in the first case or when the first group is "user" |
| LoginForm.RoleOf | frontend/src/components/Login.js:52-53 | a role is derived exactly when the payload is not JSON `null`, and it is never `null` |
| LoginForm.BeginSubmit | frontend/src/components/Login.js:30-31 | submitting clears the error and sets loading, keeping the typed credentials |
| LoginForm.StoreTokens | frontend/src/components/Login.js:47-49 | the three tokens are stored, coerced to text, and no other key changes |
| LoginForm.HandleSubmit | frontend/src/components/Login.js:28-67 | after any reply loading is off, the credentials are kept, success happens exactly when no error is shown, the error is one of the two messages, on success the access token and the reported role are stored, no key is ever removed, and on failure the stored role is untouched |
| LoginForm.SubmitSuccess | frontend/src/components/Login.js:45-57 | an ok reply with a parsable id token stores the three tokens and the derived role and reports that role |
| LoginForm.SubmitRejected | frontend/src/components/Login.js:45-60 | a non-ok reply shows "Identifiants incorrects" and leaves storage untouched |
| LoginForm.SubmitFailed | frontend/src/components/Login.js:35-63 | an unreachable server, a body that is not JSON, or an ok reply whose `data.body` is missing shows "Erreur de connexion", writes nothing and reports no success |
| LoginForm.SubmitBodyWithoutTokens | frontend/src/components/Login.js:45-57 | an ok reply whose `data.body` lacks the three token fields stores the text "undefined" for each token and signs in with the default role "user" |
| LoginForm.SubmitNullPayloadLeavesTokens | frontend/src/components/Login.js:47-63 | a JSON-null payload throws after the token writes: connection error, the access token stored, and the stored role exactly as it was before |
| AppShell.RoleOf | frontend/src/App.js:22 | a signed-out session has the role `null` |
| AppShell.CanAccessSection | frontend/src/App.js:69-83 | only the six known sections can be visible; every known section except incident management is visible to every role, and incident management exactly to a privileged role |
| AppShell.EntryAccess | frontend/src/App.js:99-128 | of the six bar entries, all but the incidents entry are visible to every role, and that one exactly to a privileged role |
| AppShell.OpenSections | frontend/src/App.js:69-83 | Newsgroup, Blog, Calendrier and Documentation are open to every role |
| AppShell.IncidentsNeedPrivilege | frontend/src/App.js:74-77 | incident management is visible exactly to "admin" and "superadmin", never to a `null` role |
| AppShell.AccessRequestOpenOthersDenied | frontend/src/App.js:69-83 | "Demande d'accès" is always visible and an unknown section never is |
| AppShell.NavBar | frontend/src/App.js:99-128 | the bar holds exactly the targets of the sections the role may see, in order: for "admin" or "superadmin" /newsgroup, /blog, /calendar, /access-request, /incidents, /documentation, and for every other role the same without /incidents |
| AppShell.NavTargets | frontend/src/App.js:99-128 | the toolbar lists at most one button per entry; its contents and order are stated by the lemmas below |
| AppShell.NavTargetsMembers | frontend/src/App.js:99-128 | a target is listed exactly when some entry for a visible section leads to it |
| AppShell.NavTargetsAppend | frontend/src/App.js:99-128 | filtering the toolbar distributes over a split of its entries |
| AppShell.NavTargetsCons | frontend/src/App.js:99-128 | an entry in front contributes its target exactly when its section is visible |
| AppShell.NavHeadTargets | frontend/src/App.js:99-113 | the first three buttons (newsgroup, blog, calendar) are shown to every role, in that order |
| AppShell.NavTailTargets | frontend/src/App.js:114-128 | the last three buttons are access request, incidents only for a privileged role, then documentation |
| AppShell.NavTargetsInOrder | frontend/src/App.js:99-128 | the whole toolbar is the open buttons in order with the incidents button in fifth place exactly for a privileged role |
| AppShell.NavBarTargets | frontend/src/App.js:99-128 | a button's target is one of the six section paths, and /incidents only for a privileged role |
| AppShell.TrimTrailingSlashes | frontend/src/App.js:144-158 | removing the trailing '/' characters leaves a prefix not ending in '/', and everything removed was '/' |
| AppShell.RouteKey | frontend/src/App.js:144-158 | the key a path is matched by is the path lowered, character by character, with its trailing '/' characters removed |
| AppShell.Route | frontend/src/App.js:144-158 | the incidents page is rendered only for a privileged role and the access-denied text only for an unprivileged one; the login page is rendered exactly for a non-empty path made only of '/' characters |
| AppShell.PageFor | frontend/src/App.js:144-158 | looked up by key, the incidents pattern gives the page only to a privileged role and access denied only to an unprivileged one, and the root pattern matches exactly the empty key of a located path |
| AppShell.PatternRoutes | frontend/src/App.js:144-158 | each of the seven patterns, written as is, routes to its own element, /incidents to the page or to access denied depending on the role |
| AppShell.OpenPatternRoutes | frontend/src/App.js:146-148 | /newsgroup, /blog, /calendar and /documentation mount their own page for every role |
| AppShell.GuardedPatternRoutes | frontend/src/App.js:149-156 | /access-request mounts the wizard, and /incidents the page for a privileged role and the refusal otherwise |
| AppShell.RouteIgnoresCase | frontend/src/App.js:144-158 | a path and its lower-case form route to the same element |
| AppShell.RouteIgnoresTrailingSlash | frontend/src/App.js:144-158 | adding a '/' to a non-empty path does not change the element it routes to |
| AppShell.RouteKeyTrailingSlash | frontend/src/App.js:144-158 | adding a '/' to a path does not change its key |
| AppShell.IncidentsRouteExample | frontend/src/App.js:150-156 | "/Incidents/" is guarded exactly like "/incidents" |
| AppShell.BlogRouteExample | frontend/src/App.js:147 | "/blog/" shows the blog |
| AppShell.IncidentGatesAgree | frontend/src/App.js:119-123 | the incidents button is shown exactly when the incidents route renders the page, and hidden exactly when it renders access denied |
| AppShell.NavBarLeadsSomewhere | frontend/src/App.js:99-158 | every button of the bar leads to a defined route that does not deny access |
| AppShell.Render | frontend/src/App.js:86-141 | the app bar is drawn exactly for a signed-in session; signed out, every path but /access-request shows only the login form |
| AppShell.UnauthenticatedScreens | frontend/src/App.js:86-88 | signed out, /access-request shows the wizard without a bar and every other path the login form |
| AppShell.Restore | frontend/src/App.js:27-34 | on start-up the session is signed in exactly when both the access token and the stored role are non-empty, with the stored role |
| AppShell.LoginSuccess | frontend/src/App.js:45-49 | a successful login signs in with the reported role and goes to /newsgroup |
| AppShell.Logout | frontend/src/App.js:54-62 | logout removes exactly the four session keys, keeps every other key, signs out and goes to / |
| AppShell.LogoutIdempotent | frontend/src/App.js:54-62 | logging out of the storage a logout left gives the same storage and the same signed-out shell again |
| AppShell.RestoreAfterLogout | frontend/src/App.js:27-62 | after logout a reload never restores a session |
| AppShell.ReloadAfterLoginKeepsAccess | frontend/src/App.js:27-34 | after a successful login with a non-empty token and role, a reload restores a session with the same access to every section |
| AppShell.Step | frontend/src/App.js:45-145 | logout from a signed-in shell signs out at /; navigating changes neither the session nor storage; the only way from signed out to signed in is a login form submission with an ok reply, which lands on /newsgroup with the session's role stored; the login form keeps its fields and error only while `<Login>` stays mounted in the same place, and otherwise restarts from the `useState` defaults |
| AppShell.Start | frontend/src/App.js:27-34 | the restored start state is consistent: a signed-in session has a non-`null` role, an access token and a stored role whose text is the session's role, and the login spinner is off |
| AppShell.StepPreservesValid | frontend/src/App.js:27-62 | every event (navigation, login reply, logout) keeps that consistency: while signed in, the token is stored and the stored role is the session's role |
| AppShell.RunPreservesValid | frontend/src/App.js:27-62 | any sequence of events keeps that consistency |
| AppShell.SubmitSignsIn | frontend/src/App.js:45-49 | when the shown form's handler reports success, the shell is signed in with exactly the reported role, at /newsgroup |
| AppShell.LoginScenarios | frontend/src/components/Login.js:53 | a "superadmin" group signs in as superadmin and an empty group list signs in with role `undefined` |
| AppShell.ErrorGoneAfterLeaving | frontend/src/App.js:86-145 | a rejected login shows "Identifiants incorrects"; after a visit to /access-request the form at / is mounted afresh, with no error and empty fields |
| AccessRequest.Set | frontend/src/components/AccessRequest.js:81-83 | a change sets the named field and leaves every other field as it was |
| AccessRequest.IsStepValid | frontend/src/components/AccessRequest.js:88-99 | a valid step is 0, 1 or 2; the last step is always valid; step 0 is valid only with the personal fields filled and step 1 only with the contact fields filled |
| AccessRequest.StepValidity | frontend/src/components/AccessRequest.js:88-99 | step 0 needs first name, last name and email, step 1 needs phone and address, step 2 is always valid, any other step is invalid |
| AccessRequest.Submission | frontend/src/components/AccessRequest.js:42-50 | a request is sent only from the last step and carries the whole form |
| AccessRequest.Step | frontend/src/components/AccessRequest.js:42-83 | once submitted the wizard no longer changes; submitting keeps the form and the step |
| AccessRequest.InitialInv | frontend/src/components/AccessRequest.js:24-37 | the empty form on step 0 satisfies the wizard invariant: the step is 0, 1 or 2 and every step already passed is complete |
| AccessRequest.StepPreservesInv | frontend/src/components/AccessRequest.js:138-269 | every event keeps the step between 0 and 2 with every passed step complete, because a passed step's fields are no longer editable |
| AccessRequest.RunPreservesInv | frontend/src/components/AccessRequest.js:138-269 | any sequence of events keeps that invariant |
| AccessRequest.SubmissionComplete | frontend/src/components/AccessRequest.js:42-69 | whatever was typed, a request can only be sent once the personal and contact steps are complete |
| AccessRequest.NextAndBack | frontend/src/components/AccessRequest.js:63-76 | Next moves forward only from a valid step and submits on the last one; Back moves back except on step 0 |
| AccessRequest.SubmittedOnlyOnOk | frontend/src/components/AccessRequest.js:52-57 | the confirmation appears exactly when a submission gets an ok reply |
| AccessRequest.ChangeTouchesOneField | frontend/src/components/AccessRequest.js:81-83 | typing into a field changes no other field and not the step |
| IncidentManagement.PriorityColor | frontend/src/components/AccessRequest.js:395-402 | no priority is shown in the success colour |
| IncidentManagement.StatusColor | frontend/src/components/AccessRequest.js:407-414 | no status is shown in the info colour |
| IncidentManagement.ColorTables | frontend/src/components/AccessRequest.js:395-414 | high/medium/low are error/warning/info, open/in_progress/resolved are error/warning/success, and any other value is default |
| IncidentManagement.Step | frontend/src/components/AccessRequest.js:349-369 | a successful creation closes the dialog and resets the draft; a failed one changes nothing; the status is never edited |
| IncidentManagement.DraftStaysOpen | frontend/src/components/AccessRequest.js:486-525 | using only the dialog's own inputs, a draft stays "open" with a priority the colour table knows |
| IncidentManagement.CreateResets | frontend/src/components/AccessRequest.js:361-364 | after a successful creation the dialog is back to its initial state, every time |
| Gregorian.DaysInMonth | frontend/src/components/Calendar.js:54-56 | a month has 28 to 31 days, February has 29 exactly in leap years, and the other months at least 30 |
| Gregorian.Weekday | frontend/src/components/Calendar.js:55 | `getDay` is between 0 and 6 |
| Gregorian.EpochThursday | frontend/src/components/Calendar.js:55 | 1 January 1970 is a Thursday (4) |
| Gregorian.Normalize | frontend/src/components/Calendar.js:103 | an out-of-range month rolls into the neighbouring year, preserving the absolute month count |
| Gregorian.MonthStep | frontend/src/components/Calendar.js:53-56 | the days before a month plus its length are the days before the next month |
| Gregorian.LastMonthStep | frontend/src/components/Calendar.js:53-56 | the days before December plus its length are the year's length |
| Gregorian.Divides | frontend/src/components/Calendar.js:54-56 | a multiple of 400 is a multiple of 100, and a multiple of 100 a multiple of 4, as the leap-year rule assumes |
| Gregorian.YearStep | frontend/src/components/Calendar.js:53-56 | the day count of a year's start plus the year's length is the next year's start |
| Gregorian.NextFirstDay | frontend/src/components/Calendar.js:53-56 | the first of the next month is the first of this month plus its length |
| Calendar.FirstWeekday | frontend/src/components/Calendar.js:53-55 | the number of leading blanks is a weekday from 0 to 6 |
| Calendar.MonthLength | frontend/src/components/Calendar.js:54-56 | `new Date(year, month + 1, 0).getDate()` is between 28 and 31 |
| Calendar.GenerateCalendarDays | frontend/src/components/Calendar.js:50-71 | the grid is the first weekday's number of blanks followed by the days 1 to the month's length, in order |
| Calendar.GridColumnIsWeekday | frontend/src/components/Calendar.js:87-133 | in the seven-column grid each day falls in the column of its own weekday |
| Calendar.NextGridOffset | frontend/src/components/Calendar.js:50-56 | next month's blanks continue where this month's grid ended |
| Calendar.QueryMonth | frontend/src/components/Calendar.js:32-33 | the month sent to the API is 1-based, between 1 and 12 |
| Calendar.DateKey | frontend/src/components/Calendar.js:78 | the key starts with the year's decimal text followed by '-' and is at least six characters longer than that text |
| Calendar.TwoDigits | frontend/src/components/Calendar.js:78 | a month or day below 100 is written as exactly two digits that read back as the number |
| Calendar.DateKeyShape | frontend/src/components/Calendar.js:78 | the key is the year's text, '-', two month digits, '-', two day digits |
| Calendar.DateKeyInjective | frontend/src/components/Calendar.js:78 | different month-day pairs give different keys |
| Calendar.KeyParts | frontend/src/components/Calendar.js:78 | two keys built from a year text and two-character month and day fields are equal only when all three parts are equal |
| Calendar.DateKeyExample | frontend/src/components/Calendar.js:78 | the fifth of March 2026 has the key "2026-03-05" |
| Calendar.EventsForDay | frontend/src/components/Calendar.js:76-80 | a blank cell and a falsy day number (0) have no events; a day from 1 on has exactly the events whose date equals its key, in order |
| Calendar.EventsForDaysDisjoint | frontend/src/components/Calendar.js:76-80 | no event is shown on two different days of the month |
| Calendar.EventsForDayCount | frontend/src/components/Calendar.js:79 | a matching event appears as often as in the loaded list |
| Calendar.PrevMonth | frontend/src/components/Calendar.js:103 | ← goes to the previous month, from January to December of the previous year |
| Calendar.NextMonth | frontend/src/components/Calendar.js:115 | → goes to the next month, from December to January of the next year |
| Calendar.NavigationInverse | frontend/src/components/Calendar.js:103-115 | ← and → undo each other |
| Calendar.DateFromParts | frontend/src/components/Calendar.js:103-115 | `new Date(y, m)` normalises the month and reads a year from 0 to 99 as 1900 + y |
| Calendar.PrevMonthAsWritten | frontend/src/components/Calendar.js:103 | as written, ← moves one month back counted in absolute months, except that a year from 0 to 99 is first read as 1900 plus the year |
| Calendar.NextMonthAsWritten | frontend/src/components/Calendar.js:115 | as written, → moves one month on counted in absolute months, except that a year from 0 to 99 is first read as 1900 plus the year |
| Calendar.AsWrittenAgrees | frontend/src/components/Calendar.js:103-115 | outside years 0 to 99 the buttons as written agree with the corrected navigation |
| Calendar.AsWrittenRoundTripFails | frontend/src/components/Calendar.js:103-115 | as written, ← from January 100 then → lands in January 2000 |
| Newsgroup.ReplyCount | frontend/src/components/Calendar.js:362 | the chip shows the number of replies, and 0 when the list is missing |
| Newsgroup.ReplyCountZero | frontend/src/components/Calendar.js:362 | the count is 0 exactly when the list is missing or empty |
| Newsgroup.Utf16 | frontend/src/components/Calendar.js:360 | a character below U+10000 is one code unit, any other is a high surrogate followed by a low surrogate |
| Newsgroup.Utf16Decodes | frontend/src/components/Calendar.js:360 | the one or two code units of a character decode back to that character |
| Newsgroup.Encode | frontend/src/components/Calendar.js:360 | a string has between one and two code units per character |
| Newsgroup.EncodeAppend | frontend/src/components/Calendar.js:360 | the code units of a concatenation are the concatenated code units |
| Newsgroup.EncodeBasic | frontend/src/components/Calendar.js:360 | text below U+10000 has as many code units as characters |
| Newsgroup.EncodeAstral | frontend/src/components/Calendar.js:360 | text above U+FFFF has two code units per character |
| Newsgroup.Take | frontend/src/components/Calendar.js:360 | `substring(0, n)` is the prefix of length min(n, length), counted in code units |
| Newsgroup.Preview | frontend/src/components/Calendar.js:360 | the preview's code units are " — ", the first 100 code units of the content, then "..." |
| Newsgroup.MissingContentPreview | frontend/src/components/Calendar.js:360 | a thread without content previews " — undefined..." |
| Newsgroup.ShortContentShownWhole | frontend/src/components/Calendar.js:360 | content of at most 100 code units is shown whole |
| Newsgroup.BasicContentShownWhole | frontend/src/components/Calendar.js:360 | text of at most 100 characters, all below U+10000, is shown whole |
| Newsgroup.AstralContentCutAtFifty | frontend/src/components/Calendar.js:360 | text made only of characters above U+FFFF is cut after its 50th character |
| Newsgroup.PreviewSeesFirstHundred | frontend/src/components/Calendar.js:360 | two contents that share their first 100 code units have the same preview |
| Documentation.FilterDocuments | frontend/src/components/Documentation.js:148-152 | the filtered list holds exactly the documents whose name, category or description contains the term, ignoring case, in order |
| Documentation.EmptyTermKeepsDocumentsWithAField | frontend/src/components/Documentation.js:148-152 | an empty search keeps exactly the documents with at least one of the three fields |
| Documentation.SearchIgnoresCase | frontend/src/components/Documentation.js:148-152 | terms that differ only in case select the same documents |
| Documentation.FilterKeepsMultiplicity | frontend/src/components/Documentation.js:148-152 | a matching document keeps all its copies, a non-matching one has none |
| Documentation.MatchesAtPosition | frontend/src/components/Documentation.js:149 | a field matches exactly when the lowered term occurs at some position of the lowered field |
| Documentation.CategoryOf | frontend/src/components/Documentation.js:158 | a non-empty category is used as is; a missing or empty one becomes "Sans catégorie" |
| Documentation.Categories | frontend/src/components/Documentation.js:196 | the categories listed are distinct and are exactly those of the documents |
| Documentation.GroupByCategory | frontend/src/components/Documentation.js:157-162 | every group is non-empty and holds only documents of the list whose category is the group's key |
| Documentation.GroupMembership | frontend/src/components/Documentation.js:157-162 | a group exists exactly for the categories that occur |
| Documentation.GroupIsFilter | frontend/src/components/Documentation.js:157-162 | each group holds its category's documents in their original order |
| Documentation.GroupContents | frontend/src/components/Documentation.js:157-162 | the grouping has a key exactly per occurring category, holding exactly that category's documents in order |
| Documentation.ExactlyOneGroup | frontend/src/components/Documentation.js:157-162 | every document sits in its own category's group and in no other |
| Documentation.GroupKeys | frontend/src/components/Documentation.js:157-196 | the grouping's keys are the listed categories |
| Documentation.GroupSizesSum | frontend/src/components/Documentation.js:201 | the chip counts of all groups add up to the number of documents |
| Documentation.DocumentsByCategory | frontend/src/components/Documentation.js:147-162 | every group is non-empty and holds only matching documents of its own category |
| Documentation.ShownDocuments | frontend/src/components/Documentation.js:148-201 | after search and grouping a document is shown exactly when it matches, under its category, and the chip counts add up to the matches |
| Documentation.GroupAsWritten | frontend/src/components/Documentation.js:157-162 | as written, when the page does not throw no key names an `Object.prototype` member, and every group holds only documents of the list in the key's category |
| Documentation.GroupAsWrittenCharacterised | frontend/src/components/Documentation.js:157-162 | as written, the page throws exactly when some category names an `Object.prototype` member, and otherwise groups correctly |
| Documentation.GroupAsWrittenSnoc | frontend/src/components/Documentation.js:157-162 | one more document keeps that characterisation: the fold throws after it exactly when it or an earlier document has an inherited category name |
| Documentation.ConstructorCategoryBreaksPage | frontend/src/components/Documentation.js:157-162 | a single document in category "constructor" makes the page throw |
| Documentation.UploadButtonShown | frontend/src/components/Documentation.js:182 | the upload button is shown exactly when the stored role is "admin" or "superadmin" |
| Documentation.UploadGateMatchesIncidentGate | frontend/src/components/Documentation.js:182 | in any consistent signed-in state, the upload button, read from the stored role, is shown exactly when the shell shows incident management |
| Documentation.UploadGateAfterAnyEvents | frontend/src/components/Documentation.js:182 | after any sequence of shell events from start-up, while signed in, the two gates still agree |
| Documentation.UploadEnabled | frontend/src/components/Documentation.js:281 | the dialog's upload button is enabled exactly when a file is chosen and the name is non-empty |
| Documentation.HandleUpload | frontend/src/components/Documentation.js:67-119 | without a file nothing happens; otherwise the first call asks for an upload URL with the file's name, type and metadata, and the form is either kept or reset after all three calls |
| Documentation.UploadOutcome | frontend/src/components/Documentation.js:67-119 | the form is reset exactly when the URL request, the upload and the registration all went through; a failure stops the sequence |
| Documentation.EnabledUploadSendsMetadata | frontend/src/components/Documentation.js:277-284 | an upload the dialog allows always sends a non-empty document name |
| Documentation.DisplayTitle | frontend/src/components/Documentation.js:214 | the title is the name when it is non-empty, otherwise the file name (`undefined` when that is missing), and it is blank exactly when both name and file name are missing or empty |
| Documentation.DisplayTitleIsAName | frontend/src/components/Documentation.js:214 | a non-empty title is one of the document's two names |

## Left out

- Network I/O: each `fetch` is replaced by its outcome, given as a parameter (ok reply, non-ok reply, thrown error); URLs, headers and JSON bodies are not modelled.
- React rendering, hooks and asynchrony: state updates are applied in program order, and interleavings such as a second click while a request is pending are not modelled.
- `atob` and `JSON.parse` inside `parseJwt` are one uninterpreted decoder parameter; base64url padding and the token's signature (never checked by the code) are left out.
- A `cognito:groups` claim that is present but not an array (a string, a number) is not modelled; the payload either lacks the claim or holds a list of strings.
- Token fields that are numbers or objects are not modelled; a token is a string, `null` or `undefined`.
- Documents whose name, category or description is present but not a string (on which `toLowerCase` would throw) are not modelled.
- `toLowerCase` lowers only the ASCII letters A–Z; other Unicode case mappings are left out.
- The order of the category keys produced by the `reduce` (JavaScript property order, with integer-like keys first) is not modelled; categories are compared as a set.
- The "Aujourd'hui" button reads the clock; the clock is not modelled, and the current month is always a parameter.
- Calendar.GenerateCalendarDays: computes the grid from the proleptic Gregorian calendar for every year, while `new Date(year, month, 1)` reads years 0 to 99 as 1900 to 1999; only the navigation buttons model that reading.
- JavaScript `Date`'s range limit of ±8.64·10^15 ms and time zones are not modelled; years are unbounded integers.
- The `t()` translation function is taken as the identity on the French texts.
- Loading the lists (incidents, events, threads, documents), the incident status update, thread creation and replies, and document download are fetch-and-store only, with no decision logic beyond "use `data.x || []`"; they are not modelled.
- Disabled buttons: Back and Next are gates on their events. Create is never disabled, so a create event is taken whenever the dialog is open. The dialog's Upload button is `UploadEnabled`; `HandleUpload` does not assume it and keeps the handler's own no-file guard, while `EnabledUploadSendsMetadata` states what an enabled click sends. The buttons' styling is not modelled.
- AppShell.Route: the location's pathname is matched as given; React Router's percent-decoding of the path and its handling of `*` and `:param` segments (no pattern here uses them) are not modelled.
- Blog.js is not part of this model.

## Findings

| source | as written | input that shows it | evidently intended | confidence | as-written member | corrected member |
|---|---|---|---|---|---|---|
| frontend/src/components/Calendar.js:103-115 | ← and → build `new Date(year, month ± 1)`, and the `Date` constructor reads a year from 0 to 99 as 1900 + year | from January of year 100, ← gives December 99, and → from there gives January 2000 | → undoes ← in every month | not executed; follows from the `Date` constructor's two-digit-year rule, and needs about 23,000 presses of ← from today | Calendar.AsWrittenRoundTripFails | Calendar.NavigationInverse |
| frontend/src/components/Documentation.js:157-162 | the grouping `reduce` starts from `{}`, so `acc[category]` for a category named after an `Object.prototype` member (`constructor`, `toString`, …) finds an inherited truthy value, creates no bucket, and `.push` throws a TypeError while the page renders | one document whose category is "constructor" | every category gets its own list, whatever its name | not executed; follows from property lookup on a plain object | Documentation.ConstructorCategoryBreaksPage | Documentation.GroupContents |

=== FILE: access_request.dfy ===
/** The access-request wizard (`AccessRequest` in `AccessRequest.js`): three
    steps, per-step required fields, Next/Back and the final submission. The
    POST itself is an input value. */
module AccessRequest {
  import opened JsValues

  /** The form's fields. */
  datatype Field =
    | FirstName | LastName | Email | Phone | Address
    | ApartmentNumber | UserType | CompanyName | Reason | Message

  datatype FormData = FormData(
    firstName: string, lastName: string, email: string, phone: string, address: string,
    apartmentNumber: string, userType: string, companyName: string, reason: string, message: string)

  /** The wizard's state: `activeStep`, `formData` and `submitted`. */
  datatype Wizard = Wizard(step: int, form: FormData, submitted: bool)

  /** A user interaction; `Next` carries the outcome of the POST it sends on the last step. */
  datatype Event = Change(field: Field, value: string) | Next(outcome: FetchOutcome) | Back

  const StepCount := 3
  const LastStep := StepCount - 1

  const InitialForm := FormData("", "", "", "", "", "", "resident", "", "", "")
  const InitialWizard := Wizard(0, InitialForm, false)

  function Get(f: FormData, field: Field): string
  {
    match field
    case FirstName => f.firstName
    case LastName => f.lastName
    case Email => f.email
    case Phone => f.phone
    case Address => f.address
    case ApartmentNumber => f.apartmentNumber
    case UserType => f.userType
    case CompanyName => f.companyName
    case Reason => f.reason
    case Message => f.message
  }

  /** `handleChange(field, value)`: `{ ...formData, [field]: value }`. */
  function Set(f: FormData, field: Field, value: string): (r: FormData)
    ensures Get(r, field) == value
    ensures forall g :: g != field ==> Get(r, g) == Get(f, g)
  {
    match field
    case FirstName => f.(firstName := value)
    case LastName => f.(lastName := value)
    case Email => f.(email := value)
    case Phone => f.(phone := value)
    case Address => f.(address := value)
    case ApartmentNumber => f.(apartmentNumber := value)
    case UserType => f.(userType := value)
    case CompanyName => f.(companyName := value)
    case Reason => f.(reason := value)
    case Message => f.(message := value)
  }

  /** The fields required on step 0 are filled in. */
  predicate PersonalComplete(f: FormData)
  {
    f.firstName != "" && f.lastName != "" && f.email != ""
  }

  /** The fields required on step 1 are filled in. */
  predicate ContactComplete(f: FormData)
  {
    f.phone != "" && f.address != ""
  }

  /** `isStepValid()`; the Next button is disabled when it is false. */
  function IsStepValid(step: int, f: FormData): (valid: bool)
    ensures valid ==> 0 <= step <= LastStep
    ensures step == LastStep ==> valid
    ensures valid && step == 0 ==> PersonalComplete(f)
    ensures valid && step == 1 ==> ContactComplete(f)
  {
    if step == 0 then PersonalComplete(f)
    else if step == 1 then ContactComplete(f)
    else if step == 2 then true
    else false
  }

  /** The input for `field` is on screen, so it can be edited. Each field has its
      own step; the company name appears only for a service company and the
      apartment number only for a resident; nothing is editable on the summary
      step or after submission. */
  predicate Editable(w: Wizard, field: Field)
  {
    && !w.submitted
    && match field
       case FirstName => w.step == 0
       case LastName => w.step == 0
       case Email => w.step == 0
       case UserType => w.step == 0
       case CompanyName => w.step == 0 && w.form.userType == "service"
       case Phone => w.step == 1
       case Address => w.step == 1
       case ApartmentNumber => w.step == 1 && w.form.userType == "resident"
       case Reason => w.step == 1
       case Message => w.step == 1
  }

  /** The body posted when Next is pressed in state `w`, if it posts at all. */
  function Submission(w: Wizard): (body: Option<FormData>)
    ensures body.Some? ==> body.value == w.form && w.step == LastStep
  {
    if !w.submitted && IsStepValid(w.step, w.form) && w.step == LastStep then Some(w.form) else None
  }

  /** One interaction. A disabled button does nothing; once submitted, the
      confirmation replaces the form and nothing is on screen to interact with. */
  function Step(w: Wizard, e: Event): (r: Wizard)
    ensures w.submitted ==> r == w
    ensures r.submitted ==> r.form == w.form && r.step == w.step
  {
    if w.submitted then w
    else match e
      case Change(field, value) =>
        if Editable(w, field) then w.(form := Set(w.form, field, value)) else w
      case Back =>
        if w.step == 0 then w else w.(step := w.step - 1)
      case Next(outcome) =>
        if !IsStepValid(w.step, w.form) then w
        else if w.step == LastStep then w.(submitted := outcome == Responded(true))
        else w.(step := w.step + 1)
  }

  function Run(w: Wizard, events: seq<Event>): Wizard
    decreases |events|
  {
    if |events| == 0 then w else Run(Step(w, events[0]), events[1..])
  }

  /** The wizard invariant: the step is 0, 1 or 2, and every step already
      passed has its required fields filled in. */
  predicate Inv(w: Wizard)
  {
    && 0 <= w.step <= LastStep
    && (w.step >= 1 ==> PersonalComplete(w.form))
    && (w.step == 2 ==> ContactComplete(w.form))
  }

  // ---------------------------------------------------------------------------

  /** `isStepValid` step by step, including the default case. */
  lemma StepValidity(step: int, f: FormData)
    ensures step == 0 ==> (IsStepValid(step, f) <==> f.firstName != "" && f.lastName != "" && f.email != "")
    ensures step == 1 ==> (IsStepValid(step, f) <==> f.phone != "" && f.address != "")
    ensures step == 2 ==> IsStepValid(step, f)
    ensures step !in {0, 1, 2} ==> !IsStepValid(step, f)
  {
  }

  /** The initial wizard satisfies the invariant. */
  lemma InitialInv()
    ensures Inv(InitialWizard)
  {
  }

  /** Every interaction keeps the invariant. */
  lemma StepPreservesInv(w: Wizard, e: Event)
    requires Inv(w)
    ensures Inv(Step(w, e))
  {
    match e
    case Change(field, value) =>
      if Editable(w, field) {
        var f := Set(w.form, field, value);
        assert w.step >= 1 ==> field !in {FirstName, LastName, Email};
        assert w.step >= 1 ==> Get(f, FirstName) == Get(w.form, FirstName);
        assert w.step >= 1 ==> Get(f, LastName) == Get(w.form, LastName);
        assert w.step >= 1 ==> Get(f, Email) == Get(w.form, Email);
        assert w.step == 2 ==> Get(f, Phone) == Get(w.form, Phone) && Get(f, Address) == Get(w.form, Address);
      }
    case Back =>
    case Next(_) =>
  }

  /** Every state reachable from the initial one satisfies the invariant. */
  lemma {:induction false} RunPreservesInv(w: Wizard, events: seq<Event>)
    requires Inv(w)
    ensures Inv(Run(w, events))
    decreases |events|
  {
    if |events| > 0 {
      StepPreservesInv(w, events[0]);
      RunPreservesInv(Step(w, events[0]), events[1..]);
    }
  }

  /** Whatever the user does, a submission carries all five required fields. */
  lemma SubmissionComplete(events: seq<Event>)
    ensures var w := Run(InitialWizard, events);
      Submission(w).Some? ==> PersonalComplete(Submission(w).value) && ContactComplete(Submission(w).value)
  {
    InitialInv();
    RunPreservesInv(InitialWizard, events);
  }

  /** Next advances one step below the last step and submits on it; Back goes
      back one step and is disabled on the first. */
  lemma NextAndBack(w: Wizard, outcome: FetchOutcome)
    requires Inv(w) && !w.submitted
    ensures IsStepValid(w.step, w.form) && w.step < LastStep ==> Step(w, Next(outcome)) == w.(step := w.step + 1)
    ensures IsStepValid(w.step, w.form) && w.step == LastStep ==> Step(w, Next(outcome)).step == LastStep && Submission(w) == Some(w.form)
    ensures !IsStepValid(w.step, w.form) ==> Step(w, Next(outcome)) == w
    ensures w.step > 0 ==> Step(w, Back) == w.(step := w.step - 1)
    ensures w.step == 0 ==> Step(w, Back) == w
  {
  }

  /** `submitted` becomes true only through an ok answer to the final POST, and then stays. */
  lemma SubmittedOnlyOnOk(w: Wizard, e: Event)
    requires !w.submitted
    ensures Step(w, e).submitted <==> Submission(w).Some? && e == Next(Responded(true))
  {
  }

  /** An edit changes only the field it names. */
  lemma ChangeTouchesOneField(w: Wizard, field: Field, value: string, other: Field)
    requires other != field
    ensures Get(Step(w, Change(field, value)).form, other) == Get(w.form, other)
    ensures Step(w, Change(field, value)).step == w.step
  {
  }
}

=== FILE: app_shell.dfy ===
/** The top-level controller (`App.js`): the session restored at start-up,
    the login and logout transitions, the section access table, the
    navigation bar and the routes it leads to. */
module AppShell {
  import opened JsValues
  import opened JsStrings
  import opened BrowserStorage
  import LoginForm

  /** `isAuthenticated` together with `userRole`: the role is `null` exactly when
      no one is logged in, so the pair is one of two states. */
  datatype Session = Unauthenticated | Authenticated(role: JsString)

  /** The shell: the session and the current location's path. */
  datatype Shell = Shell(session: Session, path: string)

  /** What the screen shows: only the login form, or the application with an
      optional navigation bar (its targets, in order) and the routed page
      (`None` when no route matches the path). */
  datatype Screen = LoginOnly | App(navBar: Option<seq<string>>, page: Option<Page>)

  datatype Page =
    | LoginPage | NewsgroupPage | BlogPage | CalendarPage | AccessRequestPage
    | IncidentsPage | AccessDeniedPage | DocumentationPage

  const NewsgroupSection := "Newsgroup"
  const BlogSection := "Blog"
  const CalendarSection := "Calendrier"
  const DocumentationSection := "Documentation"
  const IncidentsSection := "Gestion d'incidents"
  const AccessRequestSection := "Demande d'accès"

  const AccessRequestPath := "/access-request"
  const IncidentsPath := "/incidents"
  const LandingPath := "/newsgroup"
  const RootPath := "/"

  /** `userRole` as the component holds it. */
  function RoleOf(s: Session): (r: JsString)
    ensures s.Unauthenticated? ==> r == Null
  {
    match s
    case Unauthenticated => Null
    case Authenticated(role) => role
  }

  /** The test shared by the incidents button and the `/incidents` route. */
  predicate IsPrivileged(role: JsString)
  {
    role == Str("admin") || role == Str("superadmin")
  }

  /** The six section names the navigation bar asks about. */
  const Sections: set<string> := {NewsgroupSection, BlogSection, CalendarSection, DocumentationSection,
                                  IncidentsSection, AccessRequestSection}

  /** `canAccessSection(section)` with the current role: only known sections are
      ever shown, and the role matters for incident management alone. */
  function CanAccessSection(section: string, role: JsString): (allowed: bool)
    ensures allowed ==> section in Sections
    ensures section != IncidentsSection ==> (allowed <==> section in Sections)
    ensures section == IncidentsSection ==> (allowed <==> IsPrivileged(role))
  {
    if section in [NewsgroupSection, BlogSection, CalendarSection, DocumentationSection] then true
    else if section == IncidentsSection then IsPrivileged(role)
    else if section == AccessRequestSection then true
    else false
  }

  /** The navigation buttons in toolbar order: section name and target path. */
  const NavEntries: seq<(string, string)> := NavHead + NavTail

  /** The first three buttons, open to every role. */
  const NavHead: seq<(string, string)> := [
    (NewsgroupSection, "/newsgroup"),
    (BlogSection, "/blog"),
    (CalendarSection, "/calendar")
  ]

  /** The last three buttons, the incidents one among them. */
  const NavTail: seq<(string, string)> := [
    (AccessRequestSection, AccessRequestPath),
    (IncidentsSection, IncidentsPath),
    (DocumentationSection, "/documentation")
  ]

  /** The targets of the buttons whose section `canAccessSection` allows, in
      toolbar order: all six for an admin or superadmin, every one but the
      incidents button otherwise. */
  function NavBar(role: JsString): (targets: seq<string>)
    ensures |targets| <= |NavEntries|
    ensures forall t :: t in targets <==> exists e :: e in NavEntries && e.1 == t && CanAccessSection(e.0, role)
    ensures IsPrivileged(role) ==>
      targets == ["/newsgroup", "/blog", "/calendar", AccessRequestPath, IncidentsPath, "/documentation"]
    ensures !IsPrivileged(role) ==>
      targets == ["/newsgroup", "/blog", "/calendar", AccessRequestPath, "/documentation"]
  {
    NavTargetsMembers(NavEntries, role);
    NavTargetsInOrder(role, if IsPrivileged(role) then [IncidentsPath] else []);
    NavTargets(NavEntries, role)
  }

  /** The toolbar filtered in order: `middle`, what the incidents entry
      contributes, sits between the first four targets and the last. */
  lemma NavTargetsInOrder(role: JsString, middle: seq<string>)
    requires middle == if IsPrivileged(role) then [IncidentsPath] else []
    ensures NavTargets(NavEntries, role) == ["/newsgroup", "/blog", "/calendar", AccessRequestPath] + middle + ["/documentation"]
  {
    NavTargetsAppend(NavHead, NavTail, role);
    NavHeadTargets(role);
    NavTailTargets(role, middle);
  }

  /** The newsgroup, blog and calendar buttons are shown to every role. */
  lemma NavHeadTargets(role: JsString)
    ensures NavTargets(NavHead, role) == ["/newsgroup", "/blog", "/calendar"]
  {
    var e2 := [(CalendarSection, "/calendar")];
    var e1 := [(BlogSection, "/blog")] + e2;
    assert [(NewsgroupSection, "/newsgroup")] + e1 == NavHead;
    NavTargetsCons((CalendarSection, "/calendar"), [], role);
    assert [(CalendarSection, "/calendar")] + [] == e2;
    NavTargetsCons((BlogSection, "/blog"), e2, role);
    NavTargetsCons((NewsgroupSection, "/newsgroup"), e1, role);
  }

  /** Access request, then incidents for a privileged role, then documentation. */
  lemma NavTailTargets(role: JsString, middle: seq<string>)
    requires middle == if IsPrivileged(role) then [IncidentsPath] else []
    ensures NavTargets(NavTail, role) == [AccessRequestPath] + middle + ["/documentation"]
  {
    var e2 := [(DocumentationSection, "/documentation")];
    var e1 := [(IncidentsSection, IncidentsPath)] + e2;
    assert [(AccessRequestSection, AccessRequestPath)] + e1 == NavTail;
    NavTargetsCons((DocumentationSection, "/documentation"), [], role);
    assert [(DocumentationSection, "/documentation")] + [] == e2;
    NavTargetsCons((IncidentsSection, IncidentsPath), e2, role);
    NavTargetsCons((AccessRequestSection, AccessRequestPath), e1, role);
  }

  /** The toolbar filter distributes over concatenation. */
  lemma {:induction false} NavTargetsAppend(a: seq<(string, string)>, b: seq<(string, string)>, role: JsString)
    ensures NavTargets(a + b, role) == NavTargets(a, role) + NavTargets(b, role)
    decreases |a|
  {
    if |a| == 0 {
      assert a + b == b;
    } else {
      var head := if CanAccessSection(a[0].0, role) then [a[0].1] else [];
      assert (a + b)[0] == a[0];
      assert (a + b)[1..] == a[1..] + b;
      NavTargetsAppend(a[1..], b, role);
      calc {
        NavTargets(a + b, role);
        head + NavTargets(a[1..] + b, role);
        head + (NavTargets(a[1..], role) + NavTargets(b, role));
        (head + NavTargets(a[1..], role)) + NavTargets(b, role);
      }
    }
  }

  /** One entry in front of the others contributes its target when visible. */
  lemma NavTargetsCons(entry: (string, string), rest: seq<(string, string)>, role: JsString)
    ensures NavTargets([entry] + rest, role) ==
      (if CanAccessSection(entry.0, role) then [entry.1] else []) + NavTargets(rest, role)
  {
    assert ([entry] + rest)[1..] == rest;
  }

  /** What `canAccessSection` answers for each toolbar entry. */
  lemma EntryAccess(role: JsString)
    ensures CanAccessSection(NavEntries[0].0, role) && CanAccessSection(NavEntries[1].0, role)
    ensures CanAccessSection(NavEntries[2].0, role) && CanAccessSection(NavEntries[3].0, role)
    ensures CanAccessSection(NavEntries[4].0, role) == IsPrivileged(role)
    ensures CanAccessSection(NavEntries[5].0, role)
  {
  }

  function NavTargets(entries: seq<(string, string)>, role: JsString): (targets: seq<string>)
    ensures |targets| <= |entries|
  {
    if |entries| == 0 then []
    else (if CanAccessSection(entries[0].0, role) then [entries[0].1] else []) + NavTargets(entries[1..], role)
  }

  /** A target is listed exactly when some entry for a visible section leads to it. */
  lemma {:induction false} NavTargetsMembers(entries: seq<(string, string)>, role: JsString)
    ensures forall t :: t in NavTargets(entries, role) <==> exists e :: e in entries && e.1 == t && CanAccessSection(e.0, role)
    decreases |entries|
  {
    if |entries| > 0 {
      NavTargetsMembers(entries[1..], role);
      assert entries == [entries[0]] + entries[1..];
    }
  }

  /** `s` without its trailing '/' characters. */
  function TrimTrailingSlashes(s: string): (r: string)
    ensures |r| <= |s| && r == s[..|r|]
    ensures forall i :: |r| <= i < |s| ==> s[i] == '/'
    ensures |r| == 0 || r[|r| - 1] != '/'
    decreases |s|
  {
    if |s| > 0 && s[|s| - 1] == '/' then TrimTrailingSlashes(s[..|s| - 1]) else s
  }

  /** What React Router compares with a route's pattern: patterns match without
      regard to ASCII case and accept any number of trailing '/', so the
      location is lowered and its trailing '/' dropped. The pattern "/" then
      reads as "" (a location made of '/' only). */
  function RouteKey(path: string): (key: string)
    ensures |key| <= |path|
    ensures forall i :: 0 <= i < |key| ==> key[i] == LowerChar(path[i])
    ensures forall i :: |key| <= i < |path| ==> path[i] == '/'
    ensures |key| == 0 || key[|key| - 1] != '/'
  {
    TrimTrailingSlashes(Lower(path))
  }

  /** The `<Routes>` table: the element mounted for a path, `None` when no
      pattern matches. */
  function Route(path: string, role: JsString): (page: Option<Page>)
    ensures page == Some(IncidentsPage) ==> IsPrivileged(role)
    ensures page == Some(AccessDeniedPage) ==> !IsPrivileged(role)
    ensures page == Some(LoginPage) <==> |path| > 0 && forall i :: 0 <= i < |path| ==> path[i] == '/'
  {
    var key := RouteKey(path);
    assert key == "" <== forall i :: 0 <= i < |path| ==> path[i] == '/' by {
      if key != "" {
        assert key[|key| - 1] == LowerChar(path[|key| - 1]);
      }
    }
    PageFor(key, |path| > 0, role)
  }

  /** The table itself, looked up by route key. The pattern "/" only matches a
      location that has at least its leading '/'. */
  function PageFor(key: string, located: bool, role: JsString): (page: Option<Page>)
    ensures page == Some(IncidentsPage) ==> IsPrivileged(role)
    ensures page == Some(AccessDeniedPage) ==> !IsPrivileged(role)
    ensures page == Some(LoginPage) <==> located && key == ""
  {
    if located && key == "" then Some(LoginPage)
    else if key == "/newsgroup" then Some(NewsgroupPage)
    else if key == "/blog" then Some(BlogPage)
    else if key == "/calendar" then Some(CalendarPage)
    else if key == AccessRequestPath then Some(AccessRequestPage)
    else if key == IncidentsPath then (if IsPrivileged(role) then Some(IncidentsPage) else Some(AccessDeniedPage))
    else if key == "/documentation" then Some(DocumentationPage)
    else None
  }

  /** What `MainApp` renders. */
  function Render(shell: Shell): (screen: Screen)
    ensures screen.App? && screen.navBar.Some? <==> shell.session.Authenticated?
    ensures shell.session.Unauthenticated? && shell.path != AccessRequestPath ==> screen == LoginOnly
  {
    if shell.session.Unauthenticated? && shell.path != AccessRequestPath then LoginOnly
    else
      var role := RoleOf(shell.session);
      App(if shell.session.Authenticated? then Some(NavBar(role)) else None, Route(shell.path, role))
  }

  /** The start-up effect: authenticated exactly when both `authToken` and
      `userRole` are stored and non-empty, with the stored role. */
  function Restore(storage: Storage, path: string): (shell: Shell)
    ensures shell.path == path
    ensures shell.session.Authenticated? <==>
      AuthTokenKey in storage && storage[AuthTokenKey] != "" && UserRoleKey in storage && storage[UserRoleKey] != ""
    ensures shell.session.Authenticated? ==> shell.session.role == Str(storage[UserRoleKey])
  {
    if Truthy(GetItem(storage, AuthTokenKey)) && Truthy(GetItem(storage, UserRoleKey)) then
      Shell(Authenticated(GetItem(storage, UserRoleKey)), path)
    else
      Shell(Unauthenticated, path)
  }

  /** `handleLoginSuccess`: authenticated with the role handed over, then to `/newsgroup`. */
  function LoginSuccess(shell: Shell, role: JsString): (r: Shell)
    ensures r.session == Authenticated(role) && r.path == LandingPath
  {
    Shell(Authenticated(role), LandingPath)
  }

  /** `handleLogout`: the four session keys removed, unauthenticated, back to `/`. */
  function Logout(storage: Storage): (r: (Storage, Shell))
    ensures r.1 == Shell(Unauthenticated, RootPath)
    ensures forall k :: k in r.0 <==> k in storage && k !in SessionKeys
    ensures forall k :: k in r.0 ==> r.0[k] == storage[k]
  {
    var s := RemoveItem(RemoveItem(RemoveItem(RemoveItem(storage, AuthTokenKey), IdTokenKey), RefreshTokenKey), UserRoleKey);
    (s, Shell(Unauthenticated, RootPath))
  }

  /** A user interaction with the shell. */
  datatype Event =
    | Navigate(path: string)                  // link, back/forward or navigation button
    | SubmitLogin(reply: LoginForm.LoginReply) // the login form settles with this reply
    | LogoutClicked

  /** The whole application state: storage, shell and the login form's own state. */
  datatype AppState = AppState(storage: Storage, shell: Shell, login: LoginForm.LoginState)

  /** The login form is on screen: unauthenticated away from the access-request page, or at `/`. */
  predicate LoginVisible(shell: Shell)
  {
    var screen := Render(shell);
    screen.LoginOnly? || screen.page == Some(LoginPage)
  }

  /** The `<Login>` element stays mounted from one shell to the next: it is shown
      both times and in the same place, either as the whole output of `MainApp`
      or as the `/` route's element inside the application. Anywhere else React
      unmounts it, and the next mount starts from the `useState` defaults. */
  predicate LoginKept(before: Shell, after: Shell)
  {
    LoginVisible(before) && LoginVisible(after) && Render(before).LoginOnly? == Render(after).LoginOnly?
  }

  /** One interaction. The login form can only be submitted while it is shown and
      the logout button only exists in the navigation bar. The form's own state
      survives only while the form stays mounted. */
  function Step(st: AppState, e: Event, decode: LoginForm.Decoder): (r: AppState)
    ensures e.LogoutClicked? && st.shell.session.Authenticated? ==> r.shell == Shell(Unauthenticated, RootPath)
    ensures e.Navigate? ==> r.shell.session == st.shell.session && r.storage == st.storage
    ensures st.shell.session.Unauthenticated? && r.shell.session.Authenticated? ==>
      && e.SubmitLogin? && e.reply.Parsed? && e.reply.ok
      && r.shell.path == LandingPath
      && UserRoleKey in r.storage && r.storage[UserRoleKey] == Stringify(RoleOf(r.shell.session))
    ensures !LoginKept(st.shell, r.shell) ==> r.login == LoginForm.BlankForm
    ensures LoginKept(st.shell, r.shell) && !e.SubmitLogin? ==> r.login == st.login
  {
    var next := (
      match e
      case Navigate(path) => st.(shell := st.shell.(path := path))
      case LogoutClicked =>
        if st.shell.session.Authenticated? then
          var (storage, shell) := Logout(st.storage);
          st.(storage := storage, shell := shell)
        else st
      case SubmitLogin(reply) =>
        if LoginVisible(st.shell) then
          var res := LoginForm.HandleSubmit(st.login, st.storage, reply, decode);
          var shell := if res.success.Some? then LoginSuccess(st.shell, res.success.value) else st.shell;
          AppState(res.storage, shell, res.form)
        else st);
    if LoginKept(st.shell, next.shell) then next else next.(login := LoginForm.BlankForm)
  }

  /** The application after a sequence of interactions. */
  function Run(st: AppState, events: seq<Event>, decode: LoginForm.Decoder): AppState
    decreases |events|
  {
    if |events| == 0 then st else Run(Step(st, events[0], decode), events[1..], decode)
  }

  /** The state invariant: the login form is never left with its spinner on,
      and an authenticated session never carries a `null` role, has an access
      token in storage, and has its role stored as `setItem` writes it. So the
      `userRole` that other pages read from storage agrees with the session. */
  predicate Valid(st: AppState)
  {
    && !st.login.loading
    && (st.shell.session.Authenticated? ==>
          && st.shell.session.role != Null
          && AuthTokenKey in st.storage
          && UserRoleKey in st.storage
          && st.storage[UserRoleKey] == Stringify(st.shell.session.role))
  }

  /** The freshly loaded application. */
  function Start(storage: Storage, path: string): (st: AppState)
    ensures Valid(st)
  {
    AppState(storage, Restore(storage, path), LoginForm.BlankForm)
  }

  // ---------------------------------------------------------------------------
  // The access table

  /** Newsgroup, Blog, Calendrier and Documentation are open to every role. */
  lemma OpenSections(role: JsString)
    ensures CanAccessSection(NewsgroupSection, role)
    ensures CanAccessSection(BlogSection, role)
    ensures CanAccessSection(CalendarSection, role)
    ensures CanAccessSection(DocumentationSection, role)
  {
  }

  /** Incident management is reachable exactly for 'admin' and 'superadmin'. */
  lemma IncidentsNeedPrivilege(role: JsString)
    ensures CanAccessSection(IncidentsSection, role) <==> role == Str("admin") || role == Str("superadmin")
    ensures !CanAccessSection(IncidentsSection, Null)
  {
  }

  /** The access-request section is always allowed; any unknown name is denied. */
  lemma AccessRequestOpenOthersDenied(section: string, role: JsString)
    ensures CanAccessSection(AccessRequestSection, role)
    ensures (section !in {NewsgroupSection, BlogSection, CalendarSection, DocumentationSection,
                          IncidentsSection, AccessRequestSection}) ==> !CanAccessSection(section, role)
  {
  }

  /** The two gates agree: the incidents button is in the bar exactly when the
      `/incidents` route mounts incident management rather than the placeholder. */
  lemma IncidentGatesAgree(role: JsString)
    ensures IncidentsPath in NavBar(role) <==> Route(IncidentsPath, role) == Some(IncidentsPage)
    ensures IncidentsPath !in NavBar(role) <==> Route(IncidentsPath, role) == Some(AccessDeniedPage)
  {
    GuardedPatternRoutes(role);
    if !IsPrivileged(role) {
      assert NavBar(role) == ["/newsgroup", "/blog", "/calendar", AccessRequestPath, "/documentation"];
    }
  }

  /** Every button in the bar leads to a page that is not the placeholder. */
  lemma NavBarLeadsSomewhere(role: JsString, target: string)
    requires target in NavBar(role)
    ensures Route(target, role).Some?
    ensures Route(target, role) != Some(AccessDeniedPage)
  {
    NavBarTargets(role, target);
    PatternRoutes(role);
  }

  /** The targets a button can have, by name. */
  lemma NavBarTargets(role: JsString, target: string)
    requires target in NavBar(role)
    ensures || target == "/newsgroup" || target == "/blog" || target == "/calendar"
            || target == AccessRequestPath || target == "/documentation"
            || (target == IncidentsPath && IsPrivileged(role))
  {
    if IsPrivileged(role) {
      assert target in ["/newsgroup", "/blog", "/calendar", AccessRequestPath, IncidentsPath, "/documentation"];
    } else {
      assert target in ["/newsgroup", "/blog", "/calendar", AccessRequestPath, "/documentation"];
    }
  }

  // ---------------------------------------------------------------------------
  // Route matching

  /** A path with no upper-case letter is its own lower-case form. */
  lemma LowerOfLowercase(s: string)
    requires forall i :: 0 <= i < |s| ==> !('A' <= s[i] <= 'Z')
    ensures Lower(s) == s
  {
  }

  /** A lower-case pattern that does not end in '/' is its own key. */
  lemma PatternKey(pattern: string)
    requires |pattern| > 0 && pattern[|pattern| - 1] != '/'
    requires forall i :: 0 <= i < |pattern| ==> !('A' <= pattern[i] <= 'Z')
    ensures RouteKey(pattern) == pattern
  {
    LowerOfLowercase(pattern);
  }

  /** The page each pattern mounts when the location is the pattern itself. */
  lemma PatternRoutes(role: JsString)
    ensures Route(RootPath, role) == Some(LoginPage)
    ensures Route("/newsgroup", role) == Some(NewsgroupPage)
    ensures Route("/blog", role) == Some(BlogPage)
    ensures Route("/calendar", role) == Some(CalendarPage)
    ensures Route(AccessRequestPath, role) == Some(AccessRequestPage)
    ensures Route(IncidentsPath, role) == if IsPrivileged(role) then Some(IncidentsPage) else Some(AccessDeniedPage)
    ensures Route("/documentation", role) == Some(DocumentationPage)
  {
    assert RootPath[0] == '/';
    OpenPatternRoutes(role);
    GuardedPatternRoutes(role);
  }

  /** The four sections open to every role mount their page at their pattern. */
  lemma OpenPatternRoutes(role: JsString)
    ensures Route("/newsgroup", role) == Some(NewsgroupPage)
    ensures Route("/blog", role) == Some(BlogPage)
    ensures Route("/calendar", role) == Some(CalendarPage)
    ensures Route("/documentation", role) == Some(DocumentationPage)
  {
    PatternKey("/newsgroup");
    PatternKey("/blog");
    PatternKey("/calendar");
    PatternKey("/documentation");
  }

  /** The access-request pattern mounts the wizard, and the incidents pattern
      the page or the refusal, by role. */
  lemma GuardedPatternRoutes(role: JsString)
    ensures Route(AccessRequestPath, role) == Some(AccessRequestPage)
    ensures Route(IncidentsPath, role) == if IsPrivileged(role) then Some(IncidentsPage) else Some(AccessDeniedPage)
  {
    PatternKey(AccessRequestPath);
    PatternKey(IncidentsPath);
  }

  /** Routes match regardless of ASCII case. */
  lemma RouteIgnoresCase(path: string, role: JsString)
    ensures Route(Lower(path), role) == Route(path, role)
  {
    LowerIdempotent(path);
  }

  /** A trailing '/' does not change the route of a non-empty path. */
  lemma RouteIgnoresTrailingSlash(path: string, role: JsString)
    requires |path| > 0
    ensures Route(path + "/", role) == Route(path, role)
  {
    RouteKeyTrailingSlash(path);
  }

  /** The key ignores one more trailing '/'. */
  lemma RouteKeyTrailingSlash(path: string)
    ensures RouteKey(path + "/") == RouteKey(path)
  {
    var low := Lower(path);
    assert Lower(path + "/") == low + "/";
    assert (low + "/")[..|low|] == low;
  }

  /** "/Incidents/" reaches the incidents route. */
  lemma IncidentsRouteExample(role: JsString)
    ensures Route("/Incidents/", role) == Route(IncidentsPath, role)
  {
    var typed := "/Incidents";
    assert typed + "/" == "/Incidents/";
    RouteIgnoresTrailingSlash(typed, role);
    RouteIgnoresCase(typed, role);
    LowerIncidents();
  }

  lemma LowerIncidents()
    ensures Lower("/Incidents") == IncidentsPath
  {
  }

  /** "/blog/" mounts the blog. */
  lemma BlogRouteExample(role: JsString)
    ensures Route("/blog/", role) == Some(BlogPage)
  {
    assert "/blog" + "/" == "/blog/";
    RouteIgnoresTrailingSlash("/blog", role);
    PatternRoutes(role);
  }

  // ---------------------------------------------------------------------------
  // Rendering and transitions

  /** Without a session only the login form and the access-request page can be
      seen, and neither shows the navigation bar. */
  lemma UnauthenticatedScreens(path: string)
    ensures path != AccessRequestPath ==> Render(Shell(Unauthenticated, path)) == LoginOnly
    ensures Render(Shell(Unauthenticated, AccessRequestPath)) == App(None, Some(AccessRequestPage))
  {
    GuardedPatternRoutes(Null);
  }

  /** Logging out twice is the same as logging out once. */
  lemma LogoutIdempotent(storage: Storage)
    ensures var (s1, sh1) := Logout(storage); Logout(s1) == (s1, sh1)
  {
    var (s1, sh1) := Logout(storage);
    var (s2, sh2) := Logout(s1);
    assert s2 == s1;
  }

  /** After a logout a reload starts unauthenticated, whatever was stored before. */
  lemma RestoreAfterLogout(storage: Storage, path: string)
    ensures Restore(Logout(storage).0, path).session == Unauthenticated
  {
    assert AuthTokenKey in SessionKeys;
  }

  /** A reload right after a successful login grants the same sections as the
      session the login produced, as long as the access token is a non-empty
      string (an empty one makes the reload start unauthenticated). The stored
      role may differ in spelling (`undefined` is stored as the text
      "undefined"), but never in what it unlocks. A first group that is the
      empty string is stored as "" and the reload starts unauthenticated. */
  lemma ReloadAfterLoginKeepsAccess(form: LoginForm.LoginState, storage: Storage, tokens: LoginForm.TokenSet,
                                    decode: LoginForm.Decoder, path: string, section: string)
    requires LoginForm.ParseJwt(tokens.idToken, decode).Claims?
    requires tokens.accessToken != Str("")
    requires LoginForm.RoleFromGroups(LoginForm.ParseJwt(tokens.idToken, decode).groups) != Str("")
    ensures var r := LoginForm.HandleSubmit(form, storage, LoginForm.Parsed(true, Some(tokens)), decode);
      var reloaded := Restore(r.storage, path);
      && reloaded.session.Authenticated?
      && CanAccessSection(section, reloaded.session.role) == CanAccessSection(section, r.success.value)
  {
    LoginForm.SubmitSuccess(form, storage, tokens, decode);
    var r := LoginForm.HandleSubmit(form, storage, LoginForm.Parsed(true, Some(tokens)), decode);
  }

  /** Every reachable state is valid. */
  lemma {:induction false} RunPreservesValid(st: AppState, events: seq<Event>, decode: LoginForm.Decoder)
    requires Valid(st)
    ensures Valid(Run(st, events, decode))
    decreases |events|
  {
    if |events| > 0 {
      StepPreservesValid(st, events[0], decode);
      RunPreservesValid(Step(st, events[0], decode), events[1..], decode);
    }
  }

  lemma StepPreservesValid(st: AppState, e: Event, decode: LoginForm.Decoder)
    requires Valid(st)
    ensures Valid(Step(st, e, decode))
  {
  }

  /** Scenario: a rejected login shows its error; after a visit to the
      access-request page the form at `/` is mounted afresh, without it. */
  lemma ErrorGoneAfterLeaving(decode: LoginForm.Decoder)
    ensures Step(Start(map[], RootPath), SubmitLogin(LoginForm.Parsed(false, None)), decode).login.error == LoginForm.InvalidCredentials
    ensures var r := Run(Start(map[], RootPath),
                         [SubmitLogin(LoginForm.Parsed(false, None)), Navigate(AccessRequestPath), Navigate(RootPath)], decode);
      Render(r.shell) == LoginOnly && r.login == LoginForm.BlankForm
  {
    var rejected := SubmitLogin(LoginForm.Parsed(false, None));
    var s0 := Start(map[], RootPath);
    assert s0.shell == Shell(Unauthenticated, RootPath);
    UnauthenticatedScreens(RootPath);
    LoginForm.SubmitRejected(s0.login, s0.storage, None, decode);
    var s1 := Step(s0, rejected, decode);
    assert s1.shell == s0.shell;
    var s2 := Step(s1, Navigate(AccessRequestPath), decode);
    UnauthenticatedScreens(AccessRequestPath);
    assert !LoginVisible(s2.shell);
    var s3 := Step(s2, Navigate(RootPath), decode);
    var events := [rejected, Navigate(AccessRequestPath), Navigate(RootPath)];
    assert events[1..] == [Navigate(AccessRequestPath), Navigate(RootPath)];
    assert events[1..][1..] == [Navigate(RootPath)];
    assert Run(s2, events[1..][1..], decode) == Run(s3, [], decode) == s3;
    assert Run(s1, events[1..], decode) == Run(s2, events[1..][1..], decode);
    assert Run(s0, events, decode) == Run(s1, events[1..], decode);
  }

  /** Scenario: a token whose group list is ["superadmin"] leads, from the login
      form, to a session whose `/incidents` route mounts incident management;
      an empty group list leads to the access-denied placeholder. */
  lemma LoginScenarios(st: AppState, tokens: LoginForm.TokenSet, decode: LoginForm.Decoder)
    requires LoginVisible(st.shell)
    ensures LoginForm.ParseJwt(tokens.idToken, decode) == LoginForm.Claims(Some(["superadmin"])) ==>
      var r := Step(st, SubmitLogin(LoginForm.Parsed(true, Some(tokens))), decode);
      r.shell.path == LandingPath && Route(IncidentsPath, RoleOf(r.shell.session)) == Some(IncidentsPage)
    ensures LoginForm.ParseJwt(tokens.idToken, decode) == LoginForm.Claims(Some([])) ==>
      var r := Step(st, SubmitLogin(LoginForm.Parsed(true, Some(tokens))), decode);
      r.shell.session == Authenticated(Undefined) && Route(IncidentsPath, RoleOf(r.shell.session)) == Some(AccessDeniedPage)
  {
    var reply := LoginForm.Parsed(true, Some(tokens));
    SubmitSignsIn(st, reply, decode);
    GuardedPatternRoutes(Str("superadmin"));
    GuardedPatternRoutes(Undefined);
  }

  /** Submitting the shown form signs in exactly with the role the handler reports. */
  lemma SubmitSignsIn(st: AppState, reply: LoginForm.LoginReply, decode: LoginForm.Decoder)
    requires LoginVisible(st.shell)
    ensures var res := LoginForm.HandleSubmit(st.login, st.storage, reply, decode);
      res.success.Some? ==> Step(st, SubmitLogin(reply), decode).shell == Shell(Authenticated(res.success.value), LandingPath)
  {
  }
}

=== FILE: browser_storage.dfy ===
/** The browser's `localStorage` as a map from keys to strings, with the four
    keys the portal keeps its session under. */
module BrowserStorage {
  import opened JsValues

  type Storage = map<string, string>

  const AuthTokenKey := "authToken"
  const IdTokenKey := "idToken"
  const RefreshTokenKey := "refreshToken"
  const UserRoleKey := "userRole"

  /** The keys written on login and removed on logout. */
  const SessionKeys: set<string> := {AuthTokenKey, IdTokenKey, RefreshTokenKey, UserRoleKey}

  /** `localStorage.getItem(key)`: the stored string, or `null` when the key is absent. */
  function GetItem(st: Storage, key: string): (r: JsString)
    ensures r != Undefined
    ensures r.Str? <==> key in st
    ensures r.Str? ==> r.s == st[key]
  {
    if key in st then Str(st[key]) else Null
  }

  /** `localStorage.setItem(key, v)`: stores `String(v)` under `key` and leaves every other key alone. */
  function SetItem(st: Storage, key: string, v: JsString): (r: Storage)
    ensures key in r && r[key] == Stringify(v)
    ensures forall k :: k != key ==> (k in r <==> k in st)
    ensures forall k :: k != key && k in st ==> r[k] == st[k]
  {
    st[key := Stringify(v)]
  }

  /** `localStorage.removeItem(key)`: drops `key` and leaves every other key alone. */
  function RemoveItem(st: Storage, key: string): (r: Storage)
    ensures key !in r
    ensures forall k :: k != key ==> (k in r <==> k in st)
    ensures forall k :: k != key && k in st ==> r[k] == st[k]
  {
    st - {key}
  }
}

=== FILE: calendar.dfy ===
/** The calendar screen (`Calendar` in `Calendar.js`): the month grid, the
    per-day event lookup by a `Y-MM-DD` key, the events query and month
    navigation. `currentMonth` is a year and a 0-based month; the event list
    is an input value. */
module Calendar {
  import opened JsValues
  import opened JsStrings
  import opened Seqs
  import opened Gregorian

  /** The part of `currentMonth` the screen reads: `getFullYear()` and `getMonth()`. */
  datatype YearMonth = YearMonth(year: int, month: MonthIndex)

  /** A grid cell: a leading blank (`null`) or a day of the month. */
  datatype Cell = Blank | Day(day: nat)

  /** An event as the API returns it; `eventDate` may be missing. */
  datatype CalendarEvent = CalendarEvent(title: string, eventDate: Option<string>, time: Option<string>, description: Option<string>)

  /** `startingDayOfWeek`: the weekday of the 1st, Sunday = 0. */
  function FirstWeekday(ym: YearMonth): (w: int)
    ensures 0 <= w < 7
  {
    Weekday(ym.year, ym.month, 1)
  }

  /** `daysInMonth`. */
  function MonthLength(ym: YearMonth): (n: int)
    ensures 28 <= n <= 31
  {
    DaysInMonth(ym.year, ym.month)
  }

  /** `generateCalendarDays()`: the leading blanks, then the days 1 to the month's length. */
  method GenerateCalendarDays(ym: YearMonth) returns (days: seq<Cell>)
    ensures |days| == FirstWeekday(ym) + MonthLength(ym)
    ensures forall i :: 0 <= i < FirstWeekday(ym) ==> days[i] == Blank
    ensures forall i :: FirstWeekday(ym) <= i < |days| ==> days[i] == Day(i - FirstWeekday(ym) + 1)
  {
    var startingDayOfWeek := FirstWeekday(ym);
    var daysInMonth := MonthLength(ym);
    days := [];
    var i := 0;
    while i < startingDayOfWeek
      invariant 0 <= i <= startingDayOfWeek
      invariant |days| == i
      invariant forall k :: 0 <= k < i ==> days[k] == Blank
    {
      days := days + [Blank];
      i := i + 1;
    }
    i := 1;
    while i <= daysInMonth
      invariant 1 <= i <= daysInMonth + 1
      invariant |days| == startingDayOfWeek + i - 1
      invariant forall k :: 0 <= k < startingDayOfWeek ==> days[k] == Blank
      invariant forall k :: startingDayOfWeek <= k < |days| ==> days[k] == Day(k - startingDayOfWeek + 1)
    {
      days := days + [Day(i)];
      i := i + 1;
    }
  }

  /** The grid is laid out under the headers Dim, Lun, ... Sam, seven to a row:
      the cell of day `d` sits in the column of that date's weekday. */
  lemma GridColumnIsWeekday(ym: YearMonth, d: nat)
    requires 1 <= d <= MonthLength(ym)
    ensures (FirstWeekday(ym) + d - 1) % 7 == Weekday(ym.year, ym.month, d)
  {
    var n := DayNumber(ym.year, ym.month, 1) + 1;
    assert DayNumber(ym.year, ym.month, d) + 1 == n + (d - 1);
    ModAdd(n, d - 1);
  }

  lemma ModAdd(a: int, b: int)
    ensures (a % 7 + b) % 7 == (a + b) % 7
  {
    var q := a / 7;
    assert a == 7 * q + a % 7;
    assert a + b == (a % 7 + b) + 7 * q;
  }

  /** The 1-based month number sent as `month=` in the events query. */
  function QueryMonth(ym: YearMonth): (m: int)
    ensures 1 <= m <= 12
  {
    ym.month + 1
  }

  /** The `Y-MM-DD` key of a day: the year as `String` renders it, the 1-based
      month and the day each padded to two digits. */
  function DateKey(ym: YearMonth, day: nat): (key: string)
    ensures |key| >= |IntToString(ym.year)| + 6
    ensures key[..|IntToString(ym.year)|] == IntToString(ym.year) && key[|IntToString(ym.year)|] == '-'
  {
    IntToString(ym.year) + "-" + PadStart2(NatToString(ym.month + 1)) + "-" + PadStart2(NatToString(day))
  }

  /** `getEventsForDay(day)`: nothing for a falsy day (a blank, or 0),
      otherwise the events dated with the day's key. */
  function EventsForDay(ym: YearMonth, events: seq<CalendarEvent>, cell: Cell): (r: seq<CalendarEvent>)
    ensures cell.Blank? || cell.day == 0 ==> r == []
    ensures cell.Day? && cell.day > 0 ==> forall e :: e in r <==> e in events && e.eventDate == Some(DateKey(ym, cell.day))
    ensures IsSubsequence(r, events)
  {
    match cell
    case Blank => []
    case Day(d) =>
      if d == 0 then [] else
      var key := DateKey(ym, d);
      FilterIsSubsequence((e: CalendarEvent) => e.eventDate == Some(key), events);
      Filter((e: CalendarEvent) => e.eventDate == Some(key), events)
  }

  // ---------------------------------------------------------------------------
  // The date key

  /** A number below 100 pads to exactly two digits that read back as the number. */
  lemma TwoDigits(n: nat)
    requires n < 100
    ensures |PadStart2(NatToString(n))| == 2
    ensures forall i :: 0 <= i < 2 ==> '0' <= PadStart2(NatToString(n))[i] <= '9'
    ensures ParseNat(PadStart2(NatToString(n))) == n
  {
    ParseNatToString(n);
    var s := NatToString(n);
    if n < 10 {
      var p := PadStart2(s);
      assert p == ['0', s[0]];
      assert p[..1] == ['0'];
      assert ParseNat(p[..1]) == 0 by { assert p[..1][..0] == []; }
    }
  }

  /** The key is the year, then `-MM-DD`. */
  lemma DateKeyShape(ym: YearMonth, day: nat)
    requires day < 100
    ensures var key := DateKey(ym, day); var y := IntToString(ym.year);
      && |key| == |y| + 6
      && key[..|y|] == y
      && key[|y|] == '-' && key[|y| + 3] == '-'
      && key[|y| + 1..|y| + 3] == PadStart2(NatToString(ym.month + 1))
      && key[|y| + 4..] == PadStart2(NatToString(day))
  {
    TwoDigits(ym.month + 1);
    TwoDigits(day);
  }

  /** Different days have different keys, so no event is listed under two cells. */
  lemma DateKeyInjective(a: YearMonth, da: nat, b: YearMonth, db: nat)
    requires da < 100 && db < 100
    requires DateKey(a, da) == DateKey(b, db)
    ensures a == b && da == db
  {
    var ma, mb := PadStart2(NatToString(a.month + 1)), PadStart2(NatToString(b.month + 1));
    var pa, pb := PadStart2(NatToString(da)), PadStart2(NatToString(db));
    TwoDigits(a.month + 1);
    TwoDigits(b.month + 1);
    TwoDigits(da);
    TwoDigits(db);
    KeyParts(IntToString(a.year), ma, pa, IntToString(b.year), mb, pb);
    IntToStringInjective(a.year, b.year);
  }

  /** A key `y-mm-dd` with two-character fields splits back into its fields. */
  lemma KeyParts(ya: string, ma: string, pa: string, yb: string, mb: string, pb: string)
    requires |ma| == 2 && |pa| == 2 && |mb| == 2 && |pb| == 2
    requires ya + "-" + ma + "-" + pa == yb + "-" + mb + "-" + pb
    ensures ya == yb && ma == mb && pa == pb
  {
    var key := ya + "-" + ma + "-" + pa;
    assert |ya| == |yb|;
    assert ya == key[..|ya|] == yb;
    assert ma == key[|ya| + 1..|ya| + 3] == mb;
    assert pa == key[|ya| + 4..] == pb;
  }

  /** The events of two different days of the grid never overlap. */
  lemma EventsForDaysDisjoint(ym: YearMonth, events: seq<CalendarEvent>, d1: nat, d2: nat, e: CalendarEvent)
    requires 1 <= d1 <= MonthLength(ym) && 1 <= d2 <= MonthLength(ym) && d1 != d2
    ensures !(e in EventsForDay(ym, events, Day(d1)) && e in EventsForDay(ym, events, Day(d2)))
  {
    if e in EventsForDay(ym, events, Day(d1)) && e in EventsForDay(ym, events, Day(d2)) {
      DateKeyInjective(ym, d1, ym, d2);
    }
  }

  /** Concrete key format: the 5th of March 2026 is "2026-03-05". */
  lemma DateKeyExample()
    ensures DateKey(YearMonth(2026, 2), 5) == "2026-03-05"
  {
  }

  /** A day's lookup keeps every copy of each event dated that day, in order. */
  lemma EventsForDayCount(ym: YearMonth, events: seq<CalendarEvent>, d: nat, e: CalendarEvent)
    ensures multiset(EventsForDay(ym, events, Day(d)))[e] ==
      if d > 0 && e.eventDate == Some(DateKey(ym, d)) then multiset(events)[e] else 0
  {
    FilterCount((x: CalendarEvent) => x.eventDate == Some(DateKey(ym, d)), events, e);
  }

  // ---------------------------------------------------------------------------
  // Month navigation

  /** The ← button on the corrected arithmetic: one month back, January wrapping to December. */
  function PrevMonth(ym: YearMonth): (r: YearMonth)
    ensures ym.month > 0 ==> r == YearMonth(ym.year, ym.month - 1)
    ensures ym.month == 0 ==> r == YearMonth(ym.year - 1, 11)
  {
    var (y, m) := Normalize(ym.year, ym.month - 1);
    YearMonth(y, m)
  }

  /** The → button on the corrected arithmetic: one month on, December wrapping to January. */
  function NextMonth(ym: YearMonth): (r: YearMonth)
    ensures ym.month < 11 ==> r == YearMonth(ym.year, ym.month + 1)
    ensures ym.month == 11 ==> r == YearMonth(ym.year + 1, 0)
  {
    var (y, m) := Normalize(ym.year, ym.month + 1);
    YearMonth(y, m)
  }

  /** → undoes ← and ← undoes →. */
  lemma NavigationInverse(ym: YearMonth)
    ensures NextMonth(PrevMonth(ym)) == ym
    ensures PrevMonth(NextMonth(ym)) == ym
  {
  }

  /** The grid of the next month starts where this month's grid leaves off. */
  lemma NextGridOffset(ym: YearMonth)
    ensures FirstWeekday(NextMonth(ym)) == (FirstWeekday(ym) + MonthLength(ym)) % 7
  {
    NextFirstDay(ym.year, ym.month);
    ModAdd(DayNumber(ym.year, ym.month, 1) + 1, MonthLength(ym));
  }

  /** `new Date(y, m)` as written: a year argument from 0 to 99 is read as 1900 + y. */
  function DateFromParts(y: int, m: int): (r: YearMonth)
    ensures !(0 <= y <= 99) ==> r.year * 12 + r.month == y * 12 + m
    ensures 0 <= y <= 99 ==> r.year * 12 + r.month == (1900 + y) * 12 + m
  {
    var (ny, nm) := Normalize(if 0 <= y <= 99 then 1900 + y else y, m);
    YearMonth(ny, nm)
  }

  /** The ← button as written. */
  function PrevMonthAsWritten(ym: YearMonth): (r: YearMonth)
    ensures !(0 <= ym.year <= 99) ==> r.year * 12 + r.month == ym.year * 12 + ym.month - 1
    ensures 0 <= ym.year <= 99 ==> r.year * 12 + r.month == (1900 + ym.year) * 12 + ym.month - 1
  {
    DateFromParts(ym.year, ym.month - 1)
  }

  /** The → button as written. */
  function NextMonthAsWritten(ym: YearMonth): (r: YearMonth)
    ensures !(0 <= ym.year <= 99) ==> r.year * 12 + r.month == ym.year * 12 + ym.month + 1
    ensures 0 <= ym.year <= 99 ==> r.year * 12 + r.month == (1900 + ym.year) * 12 + ym.month + 1
  {
    DateFromParts(ym.year, ym.month + 1)
  }

  /** Outside the years 0 to 99 the buttons behave as the corrected arithmetic. */
  lemma AsWrittenAgrees(ym: YearMonth)
    requires !(0 <= ym.year <= 99)
    ensures PrevMonthAsWritten(ym) == PrevMonth(ym)
    ensures NextMonthAsWritten(ym) == NextMonth(ym)
  {
  }

  /** From January of year 100, ← lands on December 99, and → from there jumps to
      January 2000 instead of returning. */
  lemma AsWrittenRoundTripFails()
    ensures PrevMonthAsWritten(YearMonth(100, 0)) == YearMonth(99, 11)
    ensures NextMonthAsWritten(PrevMonthAsWritten(YearMonth(100, 0))) == YearMonth(2000, 0)
  {
  }
}

=== FILE: documentation.dfy ===
/** The document library (`Documentation.js`): the search filter, the
    grouping by category, the upload button's role gate, the upload handler
    and the title shown for each document. Requests are input values. */
module Documentation {
  import opened JsValues
  import opened JsStrings
  import opened Seqs
  import opened BrowserStorage
  import AppShell
  import LoginForm

  /** A document as the API returns it; every field may be missing. */
  datatype Doc = Doc(documentId: Option<string>, name: Option<string>, category: Option<string>,
                     description: Option<string>, fileName: Option<string>)

  /** `field?.toLowerCase().includes(searchTerm.toLowerCase())`: a missing field never matches. */
  predicate FieldMatches(field: Option<string>, term: string)
  {
    field.Some? && Includes(Lower(field.value), Lower(term))
  }

  /** The predicate of `filteredDocuments`. */
  predicate Matches(doc: Doc, term: string)
  {
    FieldMatches(doc.name, term) || FieldMatches(doc.category, term) || FieldMatches(doc.description, term)
  }

  /** `filteredDocuments`. */
  function FilterDocuments(docs: seq<Doc>, term: string): (r: seq<Doc>)
    ensures forall d :: d in r <==> d in docs && Matches(d, term)
    ensures IsSubsequence(r, docs)
  {
    FilterIsSubsequence((d: Doc) => Matches(d, term), docs);
    Filter((d: Doc) => Matches(d, term), docs)
  }

  const Uncategorised := "Sans catégorie"

  /** `doc.category || t('Sans catégorie')`: the group a document goes to. */
  function CategoryOf(doc: Doc): (c: string)
    ensures c != ""
    ensures doc.category.Some? && doc.category.value != "" ==> c == doc.category.value
    ensures doc.category.None? || doc.category.value == "" ==> c == Uncategorised
  {
    if doc.category.Some? && doc.category.value != "" then doc.category.value else Uncategorised
  }

  /** `documentsByCategory` with one bucket per category, built by the same left
      fold as the source's `reduce` but keyed like a `Map` (see
      `GroupAsWritten` for the plain-object version). */
  function GroupByCategory(docs: seq<Doc>): (g: map<string, seq<Doc>>)
    ensures forall c :: c in g ==> g[c] != []
    ensures forall c, d :: c in g && d in g[c] ==> d in docs && CategoryOf(d) == c
    decreases |docs|
  {
    if |docs| == 0 then map[]
    else
      var g := GroupByCategory(docs[..|docs| - 1]);
      var d := docs[|docs| - 1];
      var c := CategoryOf(d);
      assert docs == docs[..|docs| - 1] + [d];
      g[c := (if c in g then g[c] else []) + [d]]
  }

  /** The predicate "filed under category `c`". */
  function InCategory(c: string): Doc -> bool
  {
    (d: Doc) => CategoryOf(d) == c
  }

  /** The categories of `docs`, once each, in order of first appearance. */
  function Categories(docs: seq<Doc>): (cs: seq<string>)
    ensures NoDuplicates(cs)
    ensures forall c :: c in cs <==> exists d :: d in docs && CategoryOf(d) == c
    decreases |docs|
  {
    if |docs| == 0 then []
    else
      var prefix := docs[..|docs| - 1];
      var cs := Categories(prefix);
      var d := docs[|docs| - 1];
      assert forall x :: x in docs <==> x in prefix || x == d by {
        assert docs == prefix + [d];
      }
      if CategoryOf(d) in cs then cs else cs + [CategoryOf(d)]
  }

  predicate NoDuplicates(cs: seq<string>)
  {
    forall i, j :: 0 <= i < j < |cs| ==> cs[i] != cs[j]
  }

  /** The size of group `c`, 0 when there is none. */
  function GroupSize(g: map<string, seq<Doc>>, c: string): nat
  {
    if c in g then |g[c]| else 0
  }

  /** The sum of the group sizes over `keys`. */
  function SizeSum(g: map<string, seq<Doc>>, keys: seq<string>): nat
    decreases |keys|
  {
    if |keys| == 0 then 0 else GroupSize(g, keys[0]) + SizeSum(g, keys[1..])
  }

  /** The Upload button: shown for a stored role of 'admin' or 'superadmin',
      the same test the shell applies to the incidents section. */
  function UploadButtonShown(storedRole: JsString): (shown: bool)
    ensures shown <==> AppShell.IsPrivileged(storedRole)
    ensures shown ==> storedRole.Str?
  {
    storedRole == Str("admin") || storedRole == Str("superadmin")
  }

  // ---------------------------------------------------------------------------
  // Search

  /** With an empty search term a document is kept exactly when it has a name, a
      category or a description, even an empty one. */
  lemma EmptyTermKeepsDocumentsWithAField(doc: Doc)
    ensures Matches(doc, "") <==> doc.name.Some? || doc.category.Some? || doc.description.Some?
  {
    if doc.name.Some? { IncludesEmpty(Lower(doc.name.value)); }
    if doc.category.Some? { IncludesEmpty(Lower(doc.category.value)); }
    if doc.description.Some? { IncludesEmpty(Lower(doc.description.value)); }
  }

  /** The search ignores case: terms that lower to the same text keep the same documents. */
  lemma SearchIgnoresCase(docs: seq<Doc>, term1: string, term2: string)
    requires Lower(term1) == Lower(term2)
    ensures FilterDocuments(docs, term1) == FilterDocuments(docs, term2)
  {
    assert forall d :: Matches(d, term1) == Matches(d, term2);
    FilterCongruent((d: Doc) => Matches(d, term1), (d: Doc) => Matches(d, term2), docs);
  }

  /** Searching keeps every copy of a matching document and drops every copy of the others. */
  lemma FilterKeepsMultiplicity(docs: seq<Doc>, term: string, d: Doc)
    ensures multiset(FilterDocuments(docs, term))[d] == if Matches(d, term) then multiset(docs)[d] else 0
  {
    FilterCount((x: Doc) => Matches(x, term), docs, d);
  }

  /** A document matches when the term occurs, ignoring case, at some position of one of its fields. */
  lemma MatchesAtPosition(doc: Doc, term: string)
    ensures FieldMatches(doc.name, term) <==>
      doc.name.Some? && exists i :: OccursAt(Lower(doc.name.value), Lower(term), i)
  {
    if doc.name.Some? { IncludesAt(Lower(doc.name.value), Lower(term)); }
  }

  // ---------------------------------------------------------------------------
  // Grouping

  /** Group `c` exists exactly when some document has category `c`. */
  lemma {:induction false} GroupMembership(docs: seq<Doc>, c: string)
    ensures c in GroupByCategory(docs) <==> exists d :: d in docs && CategoryOf(d) == c
    decreases |docs|
  {
    if |docs| > 0 {
      var prefix := docs[..|docs| - 1];
      var d := docs[|docs| - 1];
      assert docs == prefix + [d];
      assert forall x :: x in docs <==> x in prefix || x == d;
      GroupMembership(prefix, c);
    }
  }

  /** Group `c` holds exactly the documents of category `c`, in their original order. */
  lemma {:induction false} GroupIsFilter(docs: seq<Doc>, c: string)
    requires c in GroupByCategory(docs)
    ensures GroupByCategory(docs)[c] == Filter(InCategory(c), docs)
    decreases |docs|
  {
    var p := InCategory(c);
    var prefix := docs[..|docs| - 1];
    var d := docs[|docs| - 1];
    var g := GroupByCategory(prefix);
    assert docs == prefix + [d];
    FilterAppend(p, prefix, [d]);
    assert Filter(p, [d]) == if p(d) then [d] else [];
    if c in g {
      GroupIsFilter(prefix, c);
    } else {
      GroupMembership(prefix, c);
      assert forall x :: x in prefix ==> !p(x);
      FilterNone(p, prefix);
      assert CategoryOf(d) == c;
      assert GroupByCategory(docs)[c] == [] + [d];
    }
  }

  /** Group `c` exists exactly when some document has category `c`, and holds
      exactly those documents, in their original order. */
  lemma GroupContents(docs: seq<Doc>, c: string)
    ensures c in GroupByCategory(docs) <==> exists d :: d in docs && CategoryOf(d) == c
    ensures c in GroupByCategory(docs) ==> GroupByCategory(docs)[c] == Filter(InCategory(c), docs)
  {
    GroupMembership(docs, c);
    if c in GroupByCategory(docs) {
      GroupIsFilter(docs, c);
    }
  }

  /** Every document lands in exactly one group: the one of its category. */
  lemma ExactlyOneGroup(docs: seq<Doc>, d: Doc, c: string)
    requires d in docs
    ensures CategoryOf(d) in GroupByCategory(docs) && d in GroupByCategory(docs)[CategoryOf(d)]
    ensures c != CategoryOf(d) && c in GroupByCategory(docs) ==> d !in GroupByCategory(docs)[c]
  {
    GroupContents(docs, CategoryOf(d));
    GroupContents(docs, c);
  }

  /** The groups are keyed by exactly the categories. */
  lemma GroupKeys(docs: seq<Doc>)
    ensures forall c :: c in GroupByCategory(docs) <==> c in Categories(docs)
  {
    forall c ensures c in GroupByCategory(docs) <==> c in Categories(docs) {
      GroupContents(docs, c);
    }
  }

  lemma {:induction false} SizeSumAppend(g: map<string, seq<Doc>>, keys: seq<string>, c: string)
    ensures SizeSum(g, keys + [c]) == SizeSum(g, keys) + GroupSize(g, c)
    decreases |keys|
  {
    if |keys| > 0 {
      assert (keys + [c])[1..] == keys[1..] + [c];
      SizeSumAppend(g, keys[1..], c);
    }
  }

  lemma {:induction false} SizeSumUpdate(g: map<string, seq<Doc>>, keys: seq<string>, c: string, v: seq<Doc>)
    requires NoDuplicates(keys)
    ensures SizeSum(g[c := v], keys) == if c in keys then SizeSum(g, keys) - GroupSize(g, c) + |v| else SizeSum(g, keys)
    decreases |keys|
  {
    if |keys| > 0 {
      assert NoDuplicates(keys[1..]) by {
        forall i, j | 0 <= i < j < |keys[1..]| ensures keys[1..][i] != keys[1..][j] {
          assert keys[1..][i] == keys[i + 1] && keys[1..][j] == keys[j + 1];
        }
      }
      SizeSumUpdate(g, keys[1..], c, v);
      if keys[0] == c {
        assert c !in keys[1..] by {
          forall j | 0 <= j < |keys[1..]| ensures keys[1..][j] != c {
            assert keys[1..][j] == keys[j + 1];
          }
        }
      }
      assert c in keys <==> keys[0] == c || c in keys[1..];
    }
  }

  /** The group sizes shown on the chips add up to the number of documents grouped. */
  lemma {:induction false} GroupSizesSum(docs: seq<Doc>)
    ensures SizeSum(GroupByCategory(docs), Categories(docs)) == |docs|
    decreases |docs|
  {
    if |docs| > 0 {
      var prefix := docs[..|docs| - 1];
      var d := docs[|docs| - 1];
      var c := CategoryOf(d);
      var g := GroupByCategory(prefix);
      var keys := Categories(prefix);
      GroupSizesSum(prefix);
      GroupKeys(prefix);
      var v := (if c in g then g[c] else []) + [d];
      SizeSumUpdate(g, keys, c, v);
      if c !in keys {
        SizeSumAppend(g[c := v], keys, c);
      }
    }
  }

  /** `documentsByCategory`: the search result grouped by category. */
  function DocumentsByCategory(docs: seq<Doc>, term: string): (g: map<string, seq<Doc>>)
    ensures forall c :: c in g ==> g[c] != []
    ensures forall c, d :: c in g && d in g[c] ==> d in docs && Matches(d, term) && CategoryOf(d) == c
  {
    GroupByCategory(FilterDocuments(docs, term))
  }

  /** On screen, a document appears under its category exactly when it matches
      the search, and the category chips add up to the number of matches. */
  lemma ShownDocuments(docs: seq<Doc>, term: string, d: Doc)
    ensures var g := DocumentsByCategory(docs, term);
      (CategoryOf(d) in g && d in g[CategoryOf(d)]) <==> d in docs && Matches(d, term)
    ensures SizeSum(DocumentsByCategory(docs, term), Categories(FilterDocuments(docs, term))) == |FilterDocuments(docs, term)|
  {
    var shown := FilterDocuments(docs, term);
    GroupContents(shown, CategoryOf(d));
    if d in shown {
      ExactlyOneGroup(shown, d, CategoryOf(d));
    }
    GroupSizesSum(shown);
  }

  // ---------------------------------------------------------------------------
  // The plain-object fold as written

  /** The names an empty object literal already answers to through `Object.prototype`. */
  const PrototypeNames: set<string> := {
    "constructor", "__proto__", "hasOwnProperty", "isPrototypeOf", "propertyIsEnumerable",
    "toString", "toLocaleString", "valueOf",
    "__defineGetter__", "__defineSetter__", "__lookupGetter__", "__lookupSetter__"
  }

  /** The outcome of the source's `reduce`: the groups, or the `TypeError` thrown
      during rendering. */
  datatype Grouping = Grouped(groups: map<string, seq<Doc>>) | RenderError

  /** The `reduce` into `{}` as written: for an inherited name `acc[category]` is
      already truthy (a function, or `Object.prototype` itself), so no bucket is
      created and `acc[category].push(doc)` throws. */
  function GroupAsWritten(docs: seq<Doc>): (r: Grouping)
    ensures r.Grouped? ==> forall c :: c in r.groups ==> c !in PrototypeNames
    ensures r.Grouped? ==> forall c, d :: c in r.groups && d in r.groups[c] ==> d in docs && CategoryOf(d) == c
    decreases |docs|
  {
    if |docs| == 0 then Grouped(map[])
    else
      assert docs == docs[..|docs| - 1] + [docs[|docs| - 1]];
      match GroupAsWritten(docs[..|docs| - 1])
      case RenderError => RenderError
      case Grouped(g) =>
        var d := docs[|docs| - 1];
        var c := CategoryOf(d);
        if c in g then Grouped(g[c := g[c] + [d]])
        else if c in PrototypeNames then RenderError
        else Grouped(g[c := [d]])
  }

  /** The fold as written fails exactly when some document's category is an
      inherited name, and otherwise agrees with `GroupByCategory`. */
  lemma {:induction false} GroupAsWrittenCharacterised(docs: seq<Doc>)
    ensures GroupAsWritten(docs).RenderError? <==> exists d :: d in docs && CategoryOf(d) in PrototypeNames
    ensures GroupAsWritten(docs).Grouped? ==> GroupAsWritten(docs).groups == GroupByCategory(docs)
    decreases |docs|
  {
    if |docs| > 0 {
      var prefix := docs[..|docs| - 1];
      assert docs == prefix + [docs[|docs| - 1]];
      GroupAsWrittenCharacterised(prefix);
      GroupAsWrittenSnoc(prefix, docs[|docs| - 1]);
    }
  }

  /** One more document keeps the characterisation: the inductive step. */
  lemma GroupAsWrittenSnoc(prefix: seq<Doc>, d: Doc)
    requires GroupAsWritten(prefix).RenderError? <==> exists x :: x in prefix && CategoryOf(x) in PrototypeNames
    requires GroupAsWritten(prefix).Grouped? ==> GroupAsWritten(prefix).groups == GroupByCategory(prefix)
    ensures GroupAsWritten(prefix + [d]).RenderError? <==> exists x :: x in prefix + [d] && CategoryOf(x) in PrototypeNames
    ensures GroupAsWritten(prefix + [d]).Grouped? ==> GroupAsWritten(prefix + [d]).groups == GroupByCategory(prefix + [d])
  {
    var docs := prefix + [d];
    assert docs[..|docs| - 1] == prefix && docs[|docs| - 1] == d;
    assert forall x :: x in docs <==> x in prefix || x == d;
    if GroupAsWritten(prefix).Grouped? {
      var g := GroupByCategory(prefix);
      var c := CategoryOf(d);
      GroupMembership(prefix, c);
      if c in g {
        var x :| x in prefix && CategoryOf(x) == c;
        assert c !in PrototypeNames;
      } else {
        assert [] + [d] == [d];
      }
    }
  }

  /** One document filed under "constructor" is enough to break the page. */
  lemma ConstructorCategoryBreaksPage()
    ensures GroupAsWritten([Doc(None, Some("Statuts"), Some("constructor"), None, None)]).RenderError?
  {
    var docs := [Doc(None, Some("Statuts"), Some("constructor"), None, None)];
    assert docs[..0] == [];
  }

  // ---------------------------------------------------------------------------
  // Upload

  datatype Metadata = Metadata(name: string, category: string, description: string)

  const BlankMetadata := Metadata("", "", "")

  /** The file chosen in the dialog. */
  datatype SelectedFile = SelectedFile(name: string, fileType: string)

  /** The dialog's state: open or not, the chosen file and the metadata fields. */
  datatype UploadForm = UploadForm(dialogOpen: bool, file: Option<SelectedFile>, metadata: Metadata)

  /** The requests the handler sends, in order. */
  datatype ApiCall =
    | RequestUploadUrl(fileName: string, fileType: string, metadata: Metadata)
    | PutFile(uploadUrl: JsString, fileType: string)
    | RegisterDocument(documentId: JsString, fileName: string, metadata: Metadata)

  /** How the presign request and the reading of its JSON settled. */
  datatype PresignReply = PresignThrew | Presigned(uploadUrl: JsString, documentId: JsString)

  /** The Upload button of the dialog is enabled. */
  function UploadEnabled(form: UploadForm): (enabled: bool)
    ensures enabled ==> form.file.Some?
    ensures enabled <==> form.file.Some? && form.metadata.name != ""
  {
    form.file.Some? && form.metadata.name != ""
  }

  /** `handleUploadDocument`: without a file it returns at once; otherwise the
      three requests run in order until one throws (their status is never
      checked), and only when none throws is the dialog closed and reset. */
  function HandleUpload(form: UploadForm, presign: PresignReply, put: FetchOutcome, register: FetchOutcome): (r: (UploadForm, seq<ApiCall>))
    ensures form.file.None? ==> r == (form, [])
    ensures form.file.Some? ==> 1 <= |r.1| <= 3 && r.1[0] == RequestUploadUrl(form.file.value.name, form.file.value.fileType, form.metadata)
    ensures r.0 == form || r.0 == UploadForm(false, None, BlankMetadata)
    ensures r.0 == UploadForm(false, None, BlankMetadata) && form != r.0 ==> |r.1| == 3
  {
    match form.file
    case None => (form, [])
    case Some(f) =>
      var first := RequestUploadUrl(f.name, f.fileType, form.metadata);
      match presign
      case PresignThrew => (form, [first])
      case Presigned(url, id) =>
        var second := PutFile(url, f.fileType);
        if put.Threw? then (form, [first, second])
        else
          var third := RegisterDocument(id, f.name, form.metadata);
          if register.Threw? then (form, [first, second, third])
          else (UploadForm(false, None, BlankMetadata), [first, second, third])
  }

  /** The dialog is reset exactly when a file was chosen and none of the three
      requests threw; the requests go out in a fixed order, each only after the
      previous one returned. */
  lemma UploadOutcome(form: UploadForm, presign: PresignReply, put: FetchOutcome, register: FetchOutcome)
    requires form.file.Some?
    ensures var (after, calls) := HandleUpload(form, presign, put, register);
      && (after == UploadForm(false, None, BlankMetadata) || after == form)
      && (presign.Presigned? && put.Responded? && register.Responded? ==> after == UploadForm(false, None, BlankMetadata) && |calls| == 3)
      && (presign.PresignThrew? ==> after == form && |calls| == 1)
      && (presign.Presigned? && put.Threw? ==> after == form && |calls| == 2 && calls[1] == PutFile(presign.uploadUrl, form.file.value.fileType))
      && (presign.Presigned? && put.Responded? && register.Threw? ==> after == form && |calls| == 3)
      && (presign.Presigned? && put.Responded? ==> calls[2] == RegisterDocument(presign.documentId, form.file.value.name, form.metadata))
  {
  }

  /** An enabled Upload button always leads to the presign request with the dialog's metadata. */
  lemma EnabledUploadSendsMetadata(form: UploadForm, presign: PresignReply, put: FetchOutcome, register: FetchOutcome)
    requires UploadEnabled(form)
    ensures var calls := HandleUpload(form, presign, put, register).1;
      |calls| >= 1 && calls[0].RequestUploadUrl? && calls[0].metadata.name != ""
  {
  }

  /** In any state that keeps the shell's invariant, the Upload button, which
      reads the role from storage, is shown exactly when the session's role
      opens incident management. */
  lemma UploadGateMatchesIncidentGate(st: AppShell.AppState)
    requires AppShell.Valid(st) && st.shell.session.Authenticated?
    ensures UploadButtonShown(GetItem(st.storage, UserRoleKey)) ==
      AppShell.CanAccessSection(AppShell.IncidentsSection, AppShell.RoleOf(st.shell.session))
  {
    var role := st.shell.session.role;
    assert GetItem(st.storage, UserRoleKey) == Str(Stringify(role));
    match role
    case Str(_) =>
    case Undefined => assert Stringify(role) == "undefined";
  }

  /** Whatever happened since the page was loaded (navigation, logins, logouts),
      a signed-in user sees the Upload button exactly when they see incident
      management. */
  lemma UploadGateAfterAnyEvents(storage: Storage, path: string, events: seq<AppShell.Event>, decode: LoginForm.Decoder)
    ensures var st := AppShell.Run(AppShell.Start(storage, path), events, decode);
      st.shell.session.Authenticated? ==>
        UploadButtonShown(GetItem(st.storage, UserRoleKey)) ==
        AppShell.CanAccessSection(AppShell.IncidentsSection, AppShell.RoleOf(st.shell.session))
  {
    var st := AppShell.Run(AppShell.Start(storage, path), events, decode);
    AppShell.RunPreservesValid(AppShell.Start(storage, path), events, decode);
    if st.shell.session.Authenticated? {
      UploadGateMatchesIncidentGate(st);
    }
  }

  /** The displayed title is always one of the document's two names. */
  lemma DisplayTitleIsAName(doc: Doc)
    ensures Truthy(DisplayTitle(doc)) ==> Some(DisplayTitle(doc).s) == doc.name || Some(DisplayTitle(doc).s) == doc.fileName
    ensures doc.name.None? ==> DisplayTitle(doc) == OrUndefined(doc.fileName)
  {
  }

  // ---------------------------------------------------------------------------
  // Display

  /** `doc.name || doc.fileName`: the name when it is non-empty, else the file
      name (rendered as nothing when missing). */
  function DisplayTitle(doc: Doc): (r: JsString)
    ensures doc.name.Some? && doc.name.value != "" ==> r == Str(doc.name.value)
    ensures !(doc.name.Some? && doc.name.value != "") ==> r == OrUndefined(doc.fileName)
    ensures Truthy(r) <==> (doc.name.Some? && doc.name.value != "") || (doc.fileName.Some? && doc.fileName.value != "")
  {
    if doc.name.Some? && doc.name.value != "" then Str(doc.name.value) else OrUndefined(doc.fileName)
  }
}

=== FILE: gregorian.dfy ===
/** Proleptic Gregorian calendar arithmetic: what the calendar screen asks of
    JavaScript's `Date` (month lengths, the weekday of a date, month
    normalisation), stated on integers. Months are 0-based like `getMonth()`. */
module Gregorian {

  type MonthIndex = m: int | 0 <= m < 12

  predicate IsLeapYear(y: int)
  {
    y % 4 == 0 && (y % 100 != 0 || y % 400 == 0)
  }

  /** The day of month of `new Date(y, m + 1, 0)`: the last day of month `m`. */
  function DaysInMonth(y: int, m: MonthIndex): (n: int)
    ensures 28 <= n <= 31
    ensures m == 1 ==> (n == 29 <==> IsLeapYear(y))
    ensures m != 1 ==> n >= 30
  {
    if m == 1 then (if IsLeapYear(y) then 29 else 28)
    else if m == 3 || m == 5 || m == 8 || m == 10 then 30
    else 31
  }

  function YearLength(y: int): int
  {
    if IsLeapYear(y) then 366 else 365
  }

  /** Days from January 1 of year `y` to the first of month `m`. */
  function DaysBeforeMonth(y: int, m: MonthIndex): int
  {
    [0, 31, 59, 90, 120, 151, 181, 212, 243, 273, 304, 334][m] + (if m >= 2 && IsLeapYear(y) then 1 else 0)
  }

  /** Days from 1 January of year 1 to 1 January of year `y`. */
  function DaysBeforeYear(y: int): int
  {
    var z := y - 1;
    365 * z + z / 4 - z / 100 + z / 400
  }

  /** Days since 1 January of year 1 (a Monday), counting backwards for earlier dates. */
  function DayNumber(y: int, m: MonthIndex, d: int): int
  {
    DaysBeforeYear(y) + DaysBeforeMonth(y, m) + d - 1
  }

  /** `getDay()` of the date: 0 for Sunday through 6 for Saturday. */
  function Weekday(y: int, m: MonthIndex, d: int): (w: int)
    ensures 0 <= w < 7
  {
    (DayNumber(y, m, d) + 1) % 7
  }

  /** `new Date(y, m)` without its two-digit-year rule: a month index outside
      0..11 carries into the year, as `Date` normalises it. */
  function Normalize(y: int, m: int): (r: (int, MonthIndex))
    ensures r.0 * 12 + r.1 == y * 12 + m
  {
    (y + m / 12, m % 12)
  }

  // ---------------------------------------------------------------------------

  /** Each month's first day follows the previous month's by that month's length. */
  lemma MonthStep(y: int, m: MonthIndex)
    requires m < 11
    ensures DaysBeforeMonth(y, m + 1) == DaysBeforeMonth(y, m) + DaysInMonth(y, m)
  {
  }

  /** The twelve month lengths add up to the year length. */
  lemma LastMonthStep(y: int)
    ensures DaysBeforeMonth(y, 11) + DaysInMonth(y, 11) == YearLength(y)
  {
  }

  /** The number of multiples of 4 up to `y` grows by one exactly at a multiple of 4. */
  lemma Step4(y: int)
    ensures y / 4 - (y - 1) / 4 == if y % 4 == 0 then 1 else 0
  {
  }

  lemma Step100(y: int)
    ensures y / 100 - (y - 1) / 100 == if y % 100 == 0 then 1 else 0
  {
  }

  lemma Step400(y: int)
    ensures y / 400 - (y - 1) / 400 == if y % 400 == 0 then 1 else 0
  {
  }

  /** Consecutive 1 Januaries are one year length apart. */
  lemma YearStep(y: int)
    ensures DaysBeforeYear(y + 1) == DaysBeforeYear(y) + YearLength(y)
  {
    Step4(y);
    Step100(y);
    Step400(y);
    Divides(y);
  }

  /** A multiple of 400 is a multiple of 100, and a multiple of 100 one of 4. */
  lemma Divides(y: int)
    ensures y % 400 == 0 ==> y % 100 == 0
    ensures y % 100 == 0 ==> y % 4 == 0
  {
    if y % 400 == 0 {
      var k := y / 400;
      assert y == 400 * k;
      assert y / 100 == 4 * k;
    }
    if y % 100 == 0 {
      var k := y / 100;
      assert y == 100 * k;
      assert y / 4 == 25 * k;
    }
  }

  /** The first of the following month comes `DaysInMonth` days after the first of this one. */
  lemma NextFirstDay(y: int, m: MonthIndex)
    ensures var (ny, nm) := Normalize(y, m + 1);
      DayNumber(ny, nm, 1) == DayNumber(y, m, 1) + DaysInMonth(y, m)
  {
    if m < 11 {
      MonthStep(y, m);
    } else {
      LastMonthStep(y);
      YearStep(y);
    }
  }

  /** Anchors the weekday count: 1 January 1970 was a Thursday. */
  lemma EpochThursday()
    ensures Weekday(1970, 0, 1) == 4
  {
  }
}

=== FILE: incident_management.dfy ===
/** The incident screen (`IncidentManagement` in `AccessRequest.js`): the chip
    colours for priority and status, and the creation dialog's draft. The
    list, create and update requests are input values. */
module IncidentManagement {
  import opened JsValues

  /** The MUI chip colours the screen uses. */
  datatype ChipColor = ErrorColor | WarningColor | InfoColor | SuccessColor | DefaultColor

  /** `getPriorityColor(priority)`. */
  function PriorityColor(priority: string): (c: ChipColor)
    ensures c != SuccessColor
  {
    match priority
    case "high" => ErrorColor
    case "medium" => WarningColor
    case "low" => InfoColor
    case _ => DefaultColor
  }

  /** `getStatusColor(status)`. */
  function StatusColor(status: string): (c: ChipColor)
    ensures c != InfoColor
  {
    match status
    case "open" => ErrorColor
    case "in_progress" => WarningColor
    case "resolved" => SuccessColor
    case _ => DefaultColor
  }

  /** `newIncident`: the draft edited in the creation dialog. */
  datatype Draft = Draft(title: string, description: string, priority: string, status: string)

  /** The dialog: its draft and whether it is open. */
  datatype Dialog = Dialog(draft: Draft, open: bool)

  const BlankDraft := Draft("", "", "medium", "open")
  const InitialDialog := Dialog(BlankDraft, false)

  /** The priorities the dialog's select offers. */
  const PriorityChoices: set<string> := {"low", "medium", "high"}

  /** An interaction with the dialog. */
  datatype Event =
    | OpenDialog | CloseDialog
    | EditTitle(title: string) | EditDescription(description: string) | ChoosePriority(priority: string)
    | Create(outcome: FetchOutcome)

  /** One interaction. The fields and buttons exist only while the dialog is
      open; `Create` resets the draft and closes the dialog only on an ok answer. */
  function Step(d: Dialog, e: Event): (r: Dialog)
    ensures d.open && e.Create? && e.outcome == Responded(true) ==> r == Dialog(BlankDraft, false)
    ensures e.Create? && (!d.open || e.outcome != Responded(true)) ==> r == d
    ensures r.draft.status == d.draft.status || r.draft == BlankDraft
  {
    if !d.open && !e.OpenDialog? then d
    else match e
    case OpenDialog => d.(open := true)
    case CloseDialog => d.(open := false)
    case EditTitle(t) => d.(draft := d.draft.(title := t))
    case EditDescription(s) => d.(draft := d.draft.(description := s))
    case ChoosePriority(p) => d.(draft := d.draft.(priority := p))
    case Create(outcome) => if outcome == Responded(true) then Dialog(BlankDraft, false) else d
  }

  function Run(d: Dialog, events: seq<Event>): Dialog
    decreases |events|
  {
    if |events| == 0 then d else Run(Step(d, events[0]), events[1..])
  }

  /** The user only picks priorities the select offers. */
  predicate MenuChoices(events: seq<Event>)
  {
    forall i :: 0 <= i < |events| && events[i].ChoosePriority? ==> events[i].priority in PriorityChoices
  }

  // ---------------------------------------------------------------------------

  /** The two colour tables, with 'default' exactly for values outside them. */
  lemma ColorTables(priority: string, status: string)
    ensures PriorityColor("high") == ErrorColor && PriorityColor("medium") == WarningColor && PriorityColor("low") == InfoColor
    ensures StatusColor("open") == ErrorColor && StatusColor("in_progress") == WarningColor && StatusColor("resolved") == SuccessColor
    ensures PriorityColor(priority) == DefaultColor <==> priority !in PriorityChoices
    ensures StatusColor(status) == DefaultColor <==> status !in {"open", "in_progress", "resolved"}
  {
  }

  /** No field of the dialog edits the status: every draft the user can build
      is still 'open', and with menu choices its priority has a non-default colour. */
  lemma {:induction false} DraftStaysOpen(d: Dialog, events: seq<Event>)
    requires d.draft.status == "open" && d.draft.priority in PriorityChoices
    requires MenuChoices(events)
    ensures Run(d, events).draft.status == "open"
    ensures Run(d, events).draft.priority in PriorityChoices
    ensures PriorityColor(Run(d, events).draft.priority) != DefaultColor
    decreases |events|
  {
    if |events| > 0 {
      assert MenuChoices(events[1..]) by {
        forall i | 0 <= i < |events[1..]| && events[1..][i].ChoosePriority?
          ensures events[1..][i].priority in PriorityChoices {
          assert events[1..][i] == events[i + 1];
        }
      }
      assert events[0].ChoosePriority? ==> events[0].priority in PriorityChoices;
      DraftStaysOpen(Step(d, events[0]), events[1..]);
    }
  }

  /** A successful creation resets the draft to its initial value and closes
      the dialog; reopening and creating again ends in the same state. */
  lemma CreateResets(d: Dialog)
    requires d.open
    ensures Step(d, Create(Responded(true))) == InitialDialog
    ensures Step(Step(Step(d, Create(Responded(true))), OpenDialog), Create(Responded(true))) == InitialDialog
  {
  }
}

=== FILE: js_strings.dfy ===
/** The handful of JavaScript string operations the portal relies on:
    `split`, ASCII `toLowerCase`, `includes`, `padStart` and the decimal
    rendering of integers inside template literals. */
module JsStrings {

  /** `s.split(sep)` for a one-character separator: never empty, and no part contains `sep`. */
  function Split(s: string, sep: char): (parts: seq<string>)
    ensures |parts| >= 1
    ensures forall i :: 0 <= i < |parts| ==> sep !in parts[i]
    ensures sep !in s ==> parts == [s]
    decreases |s|
  {
    if |s| == 0 then [""]
    else if s[0] == sep then [""] + Split(s[1..], sep)
    else
      var rest := Split(s[1..], sep);
      assert s == [s[0]] + s[1..];
      [[s[0]] + rest[0]] + rest[1..]
  }

  /** `parts.join(sep)`. */
  function Join(parts: seq<string>, sep: char): string
    requires |parts| >= 1
    decreases |parts|
  {
    if |parts| == 1 then parts[0] else parts[0] + [sep] + Join(parts[1..], sep)
  }

  /** Joining the parts of a split gives back the string. */
  lemma {:induction false} JoinSplit(s: string, sep: char)
    ensures Join(Split(s, sep), sep) == s
    decreases |s|
  {
    if |s| > 0 {
      JoinSplit(s[1..], sep);
      var rest := Split(s[1..], sep);
      if s[0] == sep {
        assert Split(s, sep) == [""] + rest;
        assert ([""] + rest)[1..] == rest;
      } else {
        var parts := [[s[0]] + rest[0]] + rest[1..];
        assert Split(s, sep) == parts;
        if |rest| == 1 {
          assert Join(rest, sep) == rest[0];
        } else {
          assert parts[1..] == rest[1..];
          assert Join(rest, sep) == rest[0] + [sep] + Join(rest[1..], sep);
        }
      }
    }
  }

  /** A separator-free word followed by the separator splits off as one part. */
  lemma {:induction false} SplitAfterWord(w: string, sep: char, x: string)
    requires sep !in w
    ensures Split(w + [sep] + x, sep) == [w] + Split(x, sep)
    decreases |w|
  {
    var s := w + [sep] + x;
    if |w| == 0 {
      assert s == [sep] + x;
      assert s[1..] == x;
    } else {
      assert w[0] in w;
      assert s[1..] == w[1..] + [sep] + x;
      assert sep !in w[1..] by {
        forall k | 0 <= k < |w[1..]| ensures w[1..][k] != sep {
          assert w[1..][k] == w[k + 1];
        }
      }
      SplitAfterWord(w[1..], sep, x);
      assert [w[0]] + w[1..] == w;
    }
  }

  /** Splitting a join of separator-free parts gives back the parts. */
  lemma {:induction false} SplitJoin(parts: seq<string>, sep: char)
    requires |parts| >= 1
    requires forall i :: 0 <= i < |parts| ==> sep !in parts[i]
    ensures Split(Join(parts, sep), sep) == parts
    decreases |parts|
  {
    if |parts| > 1 {
      SplitJoin(parts[1..], sep);
      SplitAfterWord(parts[0], sep, Join(parts[1..], sep));
      assert [parts[0]] + parts[1..] == parts;
    }
  }

  /** ASCII `toLowerCase` of one character. */
  function LowerChar(c: char): (r: char)
    ensures 'A' <= c <= 'Z' ==> r != c
    ensures !('A' <= c <= 'Z') ==> r == c
    ensures !('A' <= r <= 'Z')
  {
    if 'A' <= c <= 'Z' then (c as int - 'A' as int + 'a' as int) as char else c
  }

  /** ASCII `s.toLowerCase()`: same length, position by position. */
  function Lower(s: string): (r: string)
    ensures |r| == |s|
    ensures forall i :: 0 <= i < |s| ==> r[i] == LowerChar(s[i])
  {
    seq(|s|, i requires 0 <= i < |s| => LowerChar(s[i]))
  }

  /** Lowering twice is lowering once. */
  lemma LowerIdempotent(s: string)
    ensures Lower(Lower(s)) == Lower(s)
  {
  }

  /** `t` is a prefix of `s`. */
  predicate IsPrefix(t: string, s: string)
  {
    |t| <= |s| && s[..|t|] == t
  }

  /** `t` occurs in `s` starting at position `i`. */
  predicate OccursAt(s: string, t: string, i: int)
  {
    0 <= i <= |s| - |t| && s[i..i + |t|] == t
  }

  /** `s.includes(t)`: some suffix of `s` starts with `t`. */
  function Includes(s: string, t: string): (b: bool)
    ensures IsPrefix(t, s) ==> b
    ensures b ==> |t| <= |s|
    decreases |s|
  {
    IsPrefix(t, s) || (|s| > 0 && Includes(s[1..], t))
  }

  /** `Includes` agrees with the positional definition of a substring, in both directions. */
  lemma {:induction false} IncludesAt(s: string, t: string)
    ensures Includes(s, t) <==> exists i :: OccursAt(s, t, i)
    decreases |s|
  {
    if IsPrefix(t, s) {
      assert OccursAt(s, t, 0);
    } else if |s| == 0 {
      assert forall i :: !OccursAt(s, t, i);
    } else {
      IncludesAt(s[1..], t);
      if Includes(s[1..], t) {
        var i :| OccursAt(s[1..], t, i);
        assert s[1..][i..i + |t|] == s[i + 1..i + 1 + |t|];
        assert OccursAt(s, t, i + 1);
      } else {
        forall i | OccursAt(s, t, i) ensures false {
          assert i != 0;
          assert s[1..][i - 1..i - 1 + |t|] == s[i..i + |t|];
          assert OccursAt(s[1..], t, i - 1);
        }
      }
    }
  }

  /** Every string includes the empty string. */
  lemma IncludesEmpty(s: string)
    ensures Includes(s, "")
  {
    assert IsPrefix("", s);
  }

  /** `String(n).padStart(2, '0')`: pad on the left to width two, never truncate. */
  function PadStart2(s: string): (r: string)
    ensures |s| >= 2 ==> r == s
    ensures |s| < 2 ==> |r| == 2 && r[2 - |s|..] == s && forall i :: 0 <= i < 2 - |s| ==> r[i] == '0'
  {
    if |s| >= 2 then s else if |s| == 1 then "0" + s else "00"
  }

  /** The decimal digit character for `d`. */
  function DigitChar(d: nat): (c: char)
    requires d < 10
    ensures '0' <= c <= '9'
  {
    ('0' as int + d) as char
  }

  /** The value of a decimal digit character. */
  function DigitValue(c: char): (d: nat)
    requires '0' <= c <= '9'
    ensures d < 10
  {
    c as int - '0' as int
  }

  /** `String(n)` for a natural number: its decimal digits, without leading zeros. */
  function NatToString(n: nat): (s: string)
    ensures |s| >= 1
    ensures forall i :: 0 <= i < |s| ==> '0' <= s[i] <= '9'
    ensures n < 10 <==> |s| == 1
    ensures 10 <= n < 100 ==> |s| == 2
    ensures s[0] == '0' ==> n == 0
    decreases n
  {
    if n < 10 then [DigitChar(n)] else NatToString(n / 10) + [DigitChar(n % 10)]
  }

  /** `String(y)` for an integer, with a leading `-` for negative values. */
  function IntToString(y: int): (s: string)
    ensures |s| >= 1
    ensures y < 0 <==> s[0] == '-'
    ensures s[0] == '0' ==> y == 0
    ensures y < 0 ==> |s| >= 2 && s[1] != '0'
  {
    if y < 0 then "-" + NatToString(-y) else NatToString(y)
  }

  /** Reads a string of decimal digits back as a number. */
  function ParseNat(s: string): nat
    requires forall i :: 0 <= i < |s| ==> '0' <= s[i] <= '9'
    decreases |s|
  {
    if |s| == 0 then 0 else ParseNat(s[..|s| - 1]) * 10 + DigitValue(s[|s| - 1])
  }

  /** Reads an optionally negative decimal integer back. */
  function ParseInt(s: string): int
    requires |s| >= 1
    requires s[0] == '-' ==> forall i :: 1 <= i < |s| ==> '0' <= s[i] <= '9'
    requires s[0] != '-' ==> forall i :: 0 <= i < |s| ==> '0' <= s[i] <= '9'
  {
    if s[0] == '-' then -(ParseNat(s[1..]) as int) else ParseNat(s)
  }

  /** Decimal rendering of naturals is undone by parsing. */
  lemma {:induction false} ParseNatToString(n: nat)
    ensures ParseNat(NatToString(n)) == n
    decreases n
  {
    if n >= 10 {
      ParseNatToString(n / 10);
      var s := NatToString(n);
      assert s[..|s| - 1] == NatToString(n / 10);
    }
  }

  /** Decimal rendering of integers is undone by parsing. */
  lemma IntToStringRoundTrip(y: int)
    ensures ParseInt(IntToString(y)) == y
  {
    if y < 0 {
      ParseNatToString(-y);
      assert IntToString(y)[1..] == NatToString(-y);
    } else {
      ParseNatToString(y);
    }
  }

  /** Distinct integers render as distinct strings. */
  lemma IntToStringInjective(a: int, b: int)
    requires IntToString(a) == IntToString(b)
    ensures a == b
  {
    IntToStringRoundTrip(a);
    IntToStringRoundTrip(b);
  }
}

=== FILE: js_values.dfy ===
/** Plain JavaScript values as the portal's components see them: a value that
    may be missing, and a string-or-nullish value with JavaScript's `String()`
    coercion, which is what `localStorage.setItem` applies to its argument. */
module JsValues {

  /** A value that may be absent (`null`/`undefined` in the source). */
  datatype Option<+T> = None | Some(value: T)

  /** A JavaScript value that is `null`, `undefined` or a string. */
  datatype JsString = Null | Undefined | Str(s: string)

  /** `String(v)`: the text `localStorage.setItem` stores for `v`. */
  function Stringify(v: JsString): (r: string)
    ensures v.Str? ==> r == v.s
    ensures v.Null? ==> r == "null"
    ensures v.Undefined? ==> r == "undefined"
  {
    match v
    case Null => "null"
    case Undefined => "undefined"
    case Str(s) => s
  }

  /** An optional field read through `?.` or as a plain property: missing reads as `undefined`. */
  function OrUndefined(o: Option<string>): (r: JsString)
    ensures r != Null
    ensures o.Some? <==> r.Str?
    ensures o.Some? ==> r.s == o.value
  {
    match o
    case None => Undefined
    case Some(s) => Str(s)
  }

  /** How a `fetch` whose body is not read settled: a response with its `ok`
      flag, or a rejection. */
  datatype FetchOutcome = Responded(ok: bool) | Threw

  /** JavaScript truthiness of a string-or-nullish value: only a non-empty string is truthy. */
  predicate Truthy(v: JsString)
  {
    v.Str? && v.s != ""
  }
}

=== FILE: login_form.dfy ===
/** The login screen (`Login.js`): submitting credentials, storing the
    returned tokens, and deriving the user's role from the `cognito:groups`
    claim of the identity token. The HTTP exchange is an input value; the
    base64 and JSON decoding of the token payload is an uninterpreted
    decoder passed in by the caller. */
module LoginForm {
  import opened JsValues
  import opened JsStrings
  import opened BrowserStorage

  /** What `JSON.parse(atob(segment))` produced: an object whose `cognito:groups`
      claim is a list of strings or missing/falsy (a non-object value other than
      `null` reads every claim as missing, so it is `Claims(None)` too), or `null`. */
  datatype Payload = Claims(groups: Option<seq<string>>) | NullPayload

  /** The `{}` that `parseJwt` returns when decoding throws. */
  const EmptyClaims: Payload := Claims(None)

  /** `JSON.parse(atob(segment))`, with `None` when either call throws. */
  type Decoder = string -> Option<Payload>

  /** The three tokens read from `data.body`; a missing property reads as `undefined`. */
  datatype TokenSet = TokenSet(accessToken: JsString, idToken: JsString, refreshToken: JsString)

  /** How the login request settled, as far as the handler can observe it. */
  datatype LoginReply =
    | Unreachable                              // `fetch` rejected
    | Unparsable(ok: bool)                     // `response.json()` rejected
    | Parsed(ok: bool, body: Option<TokenSet>) // `data.body` is `null`/`undefined` when `None`

  /** The component's own state. */
  datatype LoginState = LoginState(userid: string, password: string, error: string, loading: bool)

  /** The state a freshly mounted form starts from: the four `useState` defaults. */
  const BlankForm := LoginState("", "", "", false)

  /** The outcome of one submission: storage afterwards, component state
      afterwards, and the role passed to `onLoginSuccess` when it was called. */
  datatype SubmitResult = SubmitResult(storage: Storage, form: LoginState, success: Option<JsString>)

  const InvalidCredentials := "Identifiants incorrects"
  const ConnectionError := "Erreur de connexion"
  const DefaultRole := "user"

  /** `parseJwt(token)`: decodes segment 1 of the `.`-split token and falls back to
      `{}` whenever anything throws. `split` on a non-string throws; a token
      without a second segment hands `atob` the value `undefined`, which it reads
      as the nine-character text "undefined" and rejects, since no base64 text
      has a length of one more than a multiple of four. */
  function ParseJwt(token: JsString, decode: Decoder): (p: Payload)
    ensures !token.Str? ==> p == EmptyClaims
  {
    match token
    case Str(t) =>
      var segments := Split(t, '.');
      if |segments| < 2 then EmptyClaims
      else (match decode(segments[1]) case None => EmptyClaims case Some(q) => q)
    case _ => EmptyClaims
  }

  /** `groups ? groups[0] : 'user'`: an array is truthy even when empty, so an empty
      list yields `undefined`. */
  function RoleFromGroups(groups: Option<seq<string>>): (r: JsString)
    ensures r != Null
  {
    match groups
    case None => Str(DefaultRole)
    case Some(g) => if |g| > 0 then Str(g[0]) else Undefined
  }

  /** The role read from a decoded payload; `None` when reading the claim throws
      because the payload is `null`. */
  function RoleOf(p: Payload): (r: Option<JsString>)
    ensures r.None? <==> p.NullPayload?
    ensures r.Some? ==> r.value != Null
  {
    match p
    case NullPayload => None
    case Claims(groups) => Some(RoleFromGroups(groups))
  }

  /** The first statements of `handleSubmit`: clear the error and show the spinner. */
  function BeginSubmit(form: LoginState): (r: LoginState)
    ensures r.error == "" && r.loading
    ensures r.userid == form.userid && r.password == form.password
  {
    form.(error := "", loading := true)
  }

  /** The three token writes, in source order. */
  function StoreTokens(storage: Storage, tokens: TokenSet): (r: Storage)
    ensures AuthTokenKey in r && r[AuthTokenKey] == Stringify(tokens.accessToken)
    ensures IdTokenKey in r && r[IdTokenKey] == Stringify(tokens.idToken)
    ensures RefreshTokenKey in r && r[RefreshTokenKey] == Stringify(tokens.refreshToken)
    ensures forall k :: k !in {AuthTokenKey, IdTokenKey, RefreshTokenKey} ==> (k in r <==> k in storage)
    ensures forall k :: k !in {AuthTokenKey, IdTokenKey, RefreshTokenKey} && k in storage ==> r[k] == storage[k]
  {
    var s1 := SetItem(storage, AuthTokenKey, tokens.accessToken);
    var s2 := SetItem(s1, IdTokenKey, tokens.idToken);
    SetItem(s2, RefreshTokenKey, tokens.refreshToken)
  }

  /** `handleSubmit` from the moment the request settles to the `finally` block. */
  function HandleSubmit(form: LoginState, storage: Storage, reply: LoginReply, decode: Decoder): (r: SubmitResult)
    ensures !r.form.loading
    ensures r.form.userid == form.userid && r.form.password == form.password
    ensures r.success.Some? <==> r.form.error == ""
    ensures r.form.error == "" || r.form.error == InvalidCredentials || r.form.error == ConnectionError
    ensures r.success.Some? ==> r.success.value != Null
    ensures r.success.Some? ==> UserRoleKey in r.storage && r.storage[UserRoleKey] == Stringify(r.success.value)
    ensures r.success.Some? ==> AuthTokenKey in r.storage
    ensures forall k :: k in storage ==> k in r.storage
    ensures r.success.None? ==> (UserRoleKey in r.storage <==> UserRoleKey in storage)
    ensures r.success.None? && UserRoleKey in storage ==> r.storage[UserRoleKey] == storage[UserRoleKey]
  {
    var pending := BeginSubmit(form);
    match reply
    case Unreachable => SubmitResult(storage, pending.(error := ConnectionError, loading := false), None)
    case Unparsable(_) => SubmitResult(storage, pending.(error := ConnectionError, loading := false), None)
    case Parsed(ok, body) =>
      if !ok then SubmitResult(storage, pending.(error := InvalidCredentials, loading := false), None)
      else match body
        case None => SubmitResult(storage, pending.(error := ConnectionError, loading := false), None)
        case Some(tokens) =>
          var written := StoreTokens(storage, tokens);
          match RoleOf(ParseJwt(tokens.idToken, decode))
          case None => SubmitResult(written, pending.(error := ConnectionError, loading := false), None)
          case Some(role) =>
            SubmitResult(SetItem(written, UserRoleKey, role), pending.(loading := false), Some(role))
  }

  // ---------------------------------------------------------------------------
  // Properties of the token decoding

  /** A token with no `.` has no segment 1, so its claims are empty. */
  lemma ParseJwtWithoutSecondSegment(t: string, decode: Decoder)
    requires '.' !in t
    ensures ParseJwt(Str(t), decode) == EmptyClaims
  {
  }

  /** A token whose payload segment does not decode has empty claims. */
  lemma ParseJwtUndecodable(t: string, decode: Decoder)
    requires |Split(t, '.')| >= 2 && decode(Split(t, '.')[1]).None?
    ensures ParseJwt(Str(t), decode) == EmptyClaims
  {
  }

  /** Only segment 1 is inspected: two tokens with the same segment 1 decode alike. */
  lemma ParseJwtReadsOnlySegmentOne(t1: string, t2: string, decode: Decoder)
    requires |Split(t1, '.')| >= 2 && |Split(t2, '.')| >= 2
    requires Split(t1, '.')[1] == Split(t2, '.')[1]
    ensures ParseJwt(Str(t1), decode) == ParseJwt(Str(t2), decode)
  {
  }

  /** For a `header.payload.signature` token the result depends on the payload
      alone: neither the header nor the signature is looked at. */
  lemma ParseJwtOfThreeSegments(header: string, payload: string, signature: string, decode: Decoder)
    requires '.' !in header && '.' !in payload && '.' !in signature
    ensures ParseJwt(Str(header + "." + payload + "." + signature), decode)
         == match decode(payload) case None => EmptyClaims case Some(q) => q
  {
    var parts := [header, payload, signature];
    assert parts[1..] == [payload, signature] && parts[1..][1..] == [signature];
    assert Join(parts[1..], '.') == payload + "." + signature;
    assert Join(parts, '.') == header + "." + payload + "." + signature;
    SplitJoin(parts, '.');
  }

  /** The role rule of `Login.js`: a missing claim gives 'user', a non-empty list its
      first group, and an empty list `undefined` (not 'user'). */
  lemma RoleDerivation(groups: Option<seq<string>>)
    ensures groups.None? ==> RoleFromGroups(groups) == Str("user")
    ensures groups.Some? && |groups.value| > 0 ==> RoleFromGroups(groups) == Str(groups.value[0])
    ensures groups.Some? && |groups.value| == 0 ==> RoleFromGroups(groups) == Undefined
    ensures RoleFromGroups(groups) == Str("user") <==> groups.None? || (|groups.value| > 0 && groups.value[0] == "user")
  {
  }

  // ---------------------------------------------------------------------------
  // Properties of the submit handler

  /** On an ok reply with a body and a non-null payload: the three tokens and then
      the role are stored, every other key is untouched, and `onLoginSuccess`
      receives the role that was just stored. */
  lemma SubmitSuccess(form: LoginState, storage: Storage, tokens: TokenSet, decode: Decoder)
    requires ParseJwt(tokens.idToken, decode).Claims?
    ensures var r := HandleSubmit(form, storage, Parsed(true, Some(tokens)), decode);
      && r.success == Some(RoleFromGroups(ParseJwt(tokens.idToken, decode).groups))
      && r.form.error == ""
      && r.storage.Keys == storage.Keys + SessionKeys
      && r.storage[AuthTokenKey] == Stringify(tokens.accessToken)
      && r.storage[IdTokenKey] == Stringify(tokens.idToken)
      && r.storage[RefreshTokenKey] == Stringify(tokens.refreshToken)
      && r.storage[UserRoleKey] == Stringify(r.success.value)
      && (forall k :: k in storage && k !in SessionKeys ==> r.storage[k] == storage[k])
  {
  }

  /** A non-ok reply reports invalid credentials, writes nothing and calls nothing. */
  lemma SubmitRejected(form: LoginState, storage: Storage, body: Option<TokenSet>, decode: Decoder)
    ensures var r := HandleSubmit(form, storage, Parsed(false, body), decode);
      r.storage == storage && r.success.None? && r.form.error == InvalidCredentials
  {
  }

  /** A transport failure or a body that is not JSON (read before the status is
      checked, so even for an ok status) reports a connection error, writes
      nothing and calls nothing. */
  lemma SubmitFailed(form: LoginState, storage: Storage, reply: LoginReply, decode: Decoder)
    requires reply.Unreachable? || reply.Unparsable? || (reply.Parsed? && reply.ok && reply.body.None?)
    ensures var r := HandleSubmit(form, storage, reply, decode);
      r.storage == storage && r.success.None? && r.form.error == ConnectionError
  {
  }

  /** An ok reply whose `data.body` is an object without the token fields reads
      each token as `undefined`: the text "undefined" is stored three times, and
      since `parseJwt(undefined)` yields `{}` the user is signed in as 'user'. */
  lemma SubmitBodyWithoutTokens(form: LoginState, storage: Storage, decode: Decoder)
    ensures var r := HandleSubmit(form, storage, Parsed(true, Some(TokenSet(Undefined, Undefined, Undefined))), decode);
      && r.success == Some(Str(DefaultRole)) && r.form.error == ""
      && r.storage[AuthTokenKey] == "undefined"
      && r.storage[IdTokenKey] == "undefined"
      && r.storage[RefreshTokenKey] == "undefined"
      && r.storage[UserRoleKey] == DefaultRole
  {
  }

  /** A payload of `null` makes the claim lookup throw after the three token
      writes: the handler reports a connection error, calls nothing, and leaves
      the tokens stored next to whatever role was stored before. */
  lemma SubmitNullPayloadLeavesTokens(form: LoginState, storage: Storage, tokens: TokenSet, decode: Decoder)
    requires ParseJwt(tokens.idToken, decode).NullPayload?
    ensures var r := HandleSubmit(form, storage, Parsed(true, Some(tokens)), decode);
      && r.success.None? && r.form.error == ConnectionError
      && r.storage[AuthTokenKey] == Stringify(tokens.accessToken)
      && (UserRoleKey in r.storage <==> UserRoleKey in storage)
      && (UserRoleKey in storage ==> r.storage[UserRoleKey] == storage[UserRoleKey])
  {
  }
}

=== FILE: newsgroup.dfy ===
/** The forum list (`Newsgroup` in `Calendar.js`): the reply count chip and
    the content preview shown under each thread's title. */
module Newsgroup {
  import opened JsValues

  datatype Reply = Reply(content: string, author: string, timestamp: string)

  /** A thread as the API returns it; `content` and `replies` may be missing. */
  datatype Thread = Thread(title: string, author: Option<string>, content: Option<string>, replies: Option<seq<Reply>>)

  const PreviewLength := 100
  const PreviewLead := " — "
  const Ellipsis := "..."

  /** `thread.replies?.length || 0`. */
  function ReplyCount(t: Thread): (n: nat)
    ensures t.replies.Some? ==> n == |t.replies.value|
    ensures t.replies.None? ==> n == 0
  {
    match t.replies
    case None => 0
    case Some(rs) => |rs|
  }

  // ---------------------------------------------------------------------------
  // Strings as JavaScript measures them

  /** A UTF-16 code unit: JavaScript strings are sequences of these, and
      `length` and `substring` count them. */
  type CodeUnit = u: int | 0 <= u < 0x1_0000

  /** The UTF-16 encoding of one character: the character itself below
      U+10000, a high and a low surrogate above. */
  function Utf16(c: char): (units: seq<CodeUnit>)
    ensures |units| == if c as int < 0x1_0000 then 1 else 2
    ensures c as int >= 0x1_0000 ==> 0xD800 <= units[0] < 0xDC00 && 0xDC00 <= units[1] < 0xE000
  {
    var v := c as int;
    if v < 0x1_0000 then [v]
    else [0xD800 + (v - 0x1_0000) / 0x400, 0xDC00 + (v - 0x1_0000) % 0x400]
  }

  /** The code units of one character give the character back. */
  lemma Utf16Decodes(c: char)
    ensures var units := Utf16(c);
      c as int == if |units| == 1 then units[0] as int
                  else (units[0] as int - 0xD800) * 0x400 + (units[1] as int - 0xDC00) + 0x1_0000
  {
  }

  /** The UTF-16 code units of a string. */
  function Encode(s: string): (units: seq<CodeUnit>)
    ensures |s| <= |units| <= 2 * |s|
    decreases |s|
  {
    if |s| == 0 then [] else Utf16(s[0]) + Encode(s[1..])
  }

  /** Encoding distributes over concatenation. */
  lemma {:induction false} EncodeAppend(a: string, b: string)
    ensures Encode(a + b) == Encode(a) + Encode(b)
    decreases |a|
  {
    if |a| == 0 {
      assert a + b == b;
    } else {
      assert (a + b)[0] == a[0];
      assert (a + b)[1..] == a[1..] + b;
      EncodeAppend(a[1..], b);
      calc {
        Encode(a + b);
        Utf16(a[0]) + Encode(a[1..] + b);
        Utf16(a[0]) + (Encode(a[1..]) + Encode(b));
        (Utf16(a[0]) + Encode(a[1..])) + Encode(b);
      }
    }
  }

  /** Characters below U+10000 take one code unit each. */
  lemma {:induction false} EncodeBasic(s: string)
    requires forall i :: 0 <= i < |s| ==> s[i] as int < 0x1_0000
    ensures |Encode(s)| == |s|
    decreases |s|
  {
    if |s| > 0 {
      EncodeBasic(s[1..]);
    }
  }

  /** Characters above U+FFFF (emoji, say) take two code units each. */
  lemma {:induction false} EncodeAstral(s: string)
    requires forall i :: 0 <= i < |s| ==> s[i] as int >= 0x1_0000
    ensures |Encode(s)| == 2 * |s|
    decreases |s|
  {
    if |s| > 0 {
      EncodeAstral(s[1..]);
    }
  }

  // ---------------------------------------------------------------------------
  // The preview

  /** `s.substring(0, n)` for `n >= 0`, on code units. */
  function Take(s: seq<CodeUnit>, n: nat): (r: seq<CodeUnit>)
    ensures |r| == if |s| < n then |s| else n
    ensures r == s[..|r|]
  {
    if |s| <= n then s else s[..n]
  }

  /** `` ` — ${thread.content?.substring(0, 100)}...` ``, as code units: the cut
      falls after 100 code units, which may be inside a surrogate pair. A
      missing content interpolates as the text "undefined". */
  function Preview(content: Option<string>): (r: seq<CodeUnit>)
    ensures |Encode(PreviewLead)| + |Encode(Ellipsis)| <= |r|
    ensures r[..|Encode(PreviewLead)|] == Encode(PreviewLead) && r[|r| - |Encode(Ellipsis)|..] == Encode(Ellipsis)
    ensures content.Some? ==>
      |r| == |Encode(PreviewLead)| + |Encode(Ellipsis)| +
             (if |Encode(content.value)| < PreviewLength then |Encode(content.value)| else PreviewLength)
    ensures content.Some? ==>
      r[|Encode(PreviewLead)|..|r| - |Encode(Ellipsis)|] == Encode(content.value)[..|r| - |Encode(PreviewLead)| - |Encode(Ellipsis)|]
  {
    EncodeBasic(PreviewLead);
    EncodeBasic(Ellipsis);
    var shown := match content case None => Encode("undefined") case Some(c) => Take(Encode(c), PreviewLength);
    Encode(PreviewLead) + shown + Encode(Ellipsis)
  }

  /** A thread without content previews the text "undefined". */
  lemma MissingContentPreview()
    ensures Preview(None) == Encode(PreviewLead + "undefined" + Ellipsis)
  {
    EncodeAppend(PreviewLead, "undefined");
    EncodeAppend(PreviewLead + "undefined", Ellipsis);
  }

  /** Content of at most 100 code units is shown whole. */
  lemma ShortContentShownWhole(c: string)
    requires |Encode(c)| <= PreviewLength
    ensures Preview(Some(c)) == Encode(PreviewLead + c + Ellipsis)
  {
    EncodeAppend(PreviewLead, c);
    EncodeAppend(PreviewLead + c, Ellipsis);
  }

  /** Text made only of characters below U+10000 is shown whole up to 100 characters. */
  lemma BasicContentShownWhole(c: string)
    requires |c| <= PreviewLength
    requires forall i :: 0 <= i < |c| ==> c[i] as int < 0x1_0000
    ensures Preview(Some(c)) == Encode(PreviewLead + c + Ellipsis)
  {
    EncodeBasic(c);
    ShortContentShownWhole(c);
  }

  /** Text made only of characters above U+FFFF is cut after 50 characters. */
  lemma AstralContentCutAtFifty(c: string)
    requires |c| >= 50
    requires forall i :: 0 <= i < |c| ==> c[i] as int >= 0x1_0000
    ensures Preview(Some(c)) == Encode(PreviewLead + c[..50] + Ellipsis)
  {
    var head, rest := c[..50], c[50..];
    assert c == head + rest;
    EncodeAppend(head, rest);
    EncodeAstral(head);
    assert Take(Encode(c), PreviewLength) == Encode(head);
    EncodeAppend(PreviewLead, head);
    EncodeAppend(PreviewLead + head, Ellipsis);
  }

  /** Only the first 100 code units reach the preview: contents that agree on
      them have the same preview. */
  lemma PreviewSeesFirstHundred(c1: string, c2: string)
    requires |Encode(c1)| >= PreviewLength && |Encode(c2)| >= PreviewLength
    requires Encode(c1)[..PreviewLength] == Encode(c2)[..PreviewLength]
    ensures Preview(Some(c1)) == Preview(Some(c2))
  {
  }

  /** The reply count is 0 exactly when the list is missing or empty. */
  lemma ReplyCountZero(t: Thread)
    ensures ReplyCount(t) == 0 <==> t.replies.None? || t.replies.value == []
  {
  }
}

=== FILE: seqs.dfy ===
/** Order-preserving filtering of sequences (`Array.prototype.filter`) and the
    subsequence relation it establishes. */
module Seqs {

  /** `s.filter(p)`: the elements of `s` that satisfy `p`, in their original order. */
  function Filter<T(!new)>(p: T -> bool, s: seq<T>): (r: seq<T>)
    ensures |r| <= |s|
    ensures forall x :: x in r <==> x in s && p(x)
  {
    if |s| == 0 then []
    else (if p(s[0]) then [s[0]] else []) + Filter(p, s[1..])
  }

  /** `a` is obtained from `b` by deleting elements, keeping the order of the rest. */
  predicate IsSubsequence<T(==)>(a: seq<T>, b: seq<T>)
    decreases |b|
  {
    |a| == 0 || (|b| > 0 && ((a[0] == b[0] && IsSubsequence(a[1..], b[1..])) || IsSubsequence(a, b[1..])))
  }

  /** The filter result is an order-preserving subsequence of its input. */
  lemma {:induction false} FilterIsSubsequence<T(!new)>(p: T -> bool, s: seq<T>)
    ensures IsSubsequence(Filter(p, s), s)
    decreases |s|
  {
    if |s| > 0 {
      FilterIsSubsequence(p, s[1..]);
      var rest := Filter(p, s[1..]);
      if p(s[0]) {
        assert Filter(p, s) == [s[0]] + rest;
        assert ([s[0]] + rest)[1..] == rest;
      } else {
        assert Filter(p, s) == rest;
      }
    }
  }

  /** Filtering keeps every copy of a satisfying element and drops every copy of the others. */
  lemma {:induction false} FilterCount<T(!new)>(p: T -> bool, s: seq<T>, x: T)
    ensures multiset(Filter(p, s))[x] == if p(x) then multiset(s)[x] else 0
    decreases |s|
  {
    if |s| > 0 {
      FilterCount(p, s[1..], x);
      assert s == [s[0]] + s[1..];
      assert multiset(s) == multiset([s[0]]) + multiset(s[1..]);
      var head := if p(s[0]) then [s[0]] else [];
      assert multiset(Filter(p, s)) == multiset(head) + multiset(Filter(p, s[1..]));
    }
  }

  /** Filtering distributes over concatenation, which is how a left fold sees it. */
  lemma {:induction false} FilterAppend<T(!new)>(p: T -> bool, a: seq<T>, b: seq<T>)
    ensures Filter(p, a + b) == Filter(p, a) + Filter(p, b)
    decreases |a|
  {
    if |a| > 0 {
      assert (a + b)[1..] == a[1..] + b;
      FilterAppend(p, a[1..], b);
    } else {
      assert a + b == b;
    }
  }

  /** Filters by predicates that agree everywhere give the same result. */
  lemma {:induction false} FilterCongruent<T(!new)>(p: T -> bool, q: T -> bool, s: seq<T>)
    requires forall x :: p(x) == q(x)
    ensures Filter(p, s) == Filter(q, s)
    decreases |s|
  {
    if |s| > 0 {
      FilterCongruent(p, q, s[1..]);
    }
  }

  /** Nothing passes a filter that no element satisfies. */
  lemma {:induction false} FilterNone<T(!new)>(p: T -> bool, s: seq<T>)
    requires forall x :: x in s ==> !p(x)
    ensures Filter(p, s) == []
    decreases |s|
  {
    if |s| > 0 {
      assert s[0] in s;
      assert forall x :: x in s[1..] ==> x in s;
      FilterNone(p, s[1..]);
    }
  }
}
